=== FILE: README.md ===
# ConfigLib in Dafny

ConfigLib is an Arduino library for keeping a sketch's configuration in
EEPROM. At start-up it loads the configuration and gives the user a short
window to enter an interactive serial console. From the console the user
can write, read, erase and dump the stored configuration.

This project models the library's core as pure functions on an immutable
EEPROM image: a `seq<bv8>` of 1024 cells.

- **Block format** (`Block`, `Locator`, `Eeprom`, `Checksum`). A block is
  the marker "MGGG", four tag bytes, a length byte, the payload and one
  checksum byte.
  - Writer: `writeBlockToEEPROM` and its byte writers.
  - Reader: `readBlockAtPosFromEEPROM` and `readBlockFromEEPROM`.
  - `loadConfigFromEEPROM` and `writeConfigToEEPROM`.
  - Locator: `locateBlock`, `atBlockStart` and `checkBlockTagMatches`.
  - The placeholder checksum, which always yields 'X'.
- **Line reader** (`LineReader`). `readLineFromSerial` as a state machine:
  the static position plus the caller's buffer, fed one `Serial.read()`
  value at a time.
- **Console** (`Commands`, `Console`, `Parsing`). The command chain of
  `runConfigUI`, with its `strtok`/`atoi` argument parsing. Output text and
  caller callbacks become recorded events.
- **Start-up gate** (`Startup`). The polling loop of `initConfig`, which
  decides whether the console is entered.
- **Field helpers** (`Parsing`). `getField`, `getFieldOfSize` and
  `find_first_non_white_space`.

The EEPROM hardware, the serial port and the clock are parameters:
- an `Image` for the EEPROM;
- the sequence of values `Serial.read()` returns on successive calls;
- the selection period in milliseconds.

The library reads and writes without bounds checks. In the model, an
address outside [0, 1024) reads as 0xFF, and a write there is dropped.

The start-up prompt asks the user to press 'C' and 'Enter'
(ConfigLib.cpp:560). The gate reacts to a committed line, not to a single
keypress: "C" followed by a carriage return.

## Model

| member | source | states |
|---|---|---|
| Eeprom.WriteBytes | ConfigLib.cpp:174-185 | the image holds `data` over [loc, loc+\|data\|) and is unchanged everywhere else |
| Eeprom.Fill | ConfigLib.cpp:188-193 | n cells from loc hold the byte; every other cell is unchanged |
| Eeprom.ReadBytesAfterWriteBytes | ConfigLib.cpp:174-185 | reading back a range just written, inside the region, returns the bytes written |
| Eeprom.ReadBytesAgree | ConfigLib.cpp:257-267 | a read depends only on the cells it covers |
| Checksum.Crc8 | ConfigLib.cpp:628-631 | crc8 ignores the running value and the byte: the result is always 'X' (0x58) |
| Checksum.Crc8Buffer | ConfigLib.cpp:628-636 | crc8_buffer ignores the running value and the run: the result is always 'X', which on a non-empty run is what folding crc8 over its bytes gives |
| Checksum.FoldIsStub | ConfigLib.cpp:628-631 | folding crc8 over a non-empty run gives 'X'; an empty run keeps the start value |
| Checksum.WriterAgreesWithReader | ConfigLib.cpp:633-636 | the writer's three crc8_buffer runs and the reader's byte-wise crc8 reach the same checksum whenever the tag is non-empty |
| Checksum.ReaderChecksum | ConfigLib.cpp:280-297 | the checksum the reader computes over a block (tag, length byte, payload, one byte at a time) is 'X' whatever the bytes |
| Locator.Locate | ConfigLib.cpp:104-171 | the result is -1 or the least offset from start holding "MGGG" (and the tag's first four bytes when a tag is given); -1 exactly when no offset in [start, 1024) qualifies |
| Locator.LocateIsLeastMatch | ConfigLib.cpp:135-171 | any least matching offset is the locator's answer |
| Locator.IsBlockAtAgree | ConfigLib.cpp:104-131 | whether a block starts at o depends only on the eight cells from o |
| Locator.AtBlockStartReadsMarker | ConfigLib.cpp:104-116 | atBlockStart holds exactly when the four cells read from o, in order, are "MGGG" |
| Locator.TagMatchesReadsTag | ConfigLib.cpp:119-131 | checkBlockTagMatches holds exactly when the four cells read from o are the tag's bytes 0 to 3; for a tag of four or more characters, its first four characters |
| Block.WriteBlock | ConfigLib.cpp:196-254 | fails exactly for a tag shorter than 4 or for no position with no block carrying the tag; a short tag reports TagTooShort; blockLen = n+10; an explicit position is used as given; with no position, the first block with the tag is used |
| Block.WriteLaysDownFrame | ConfigLib.cpp:228-251 | the written block holds "MGGG", the tag's first 4 bytes, n mod 256, the payload and 'X' at their offsets; every cell outside [p, p+n+10) is unchanged |
| Block.ReadBlockAtPos | ConfigLib.cpp:270-312 | tag and payload are copied from the cells after the marker, which is never checked; the payload length is the stored length byte; the checksum matches exactly when the cell after the payload is 'X' |
| Block.ReadAfterWrite | ConfigLib.cpp:196-312 | a block written with at most 255 payload bytes that fits reads back with checksum ok, the tag's first four bytes and exactly the payload; the writer's and the reader's blockLen are both the payload length plus 10 |
| Block.LocateAfterWrite | ConfigLib.cpp:135-171 | after a write at p, scanning from p for the tag, or for any block, returns p |
| Block.FrameIsBlock | ConfigLib.cpp:104-131 | a laid-down frame is a block start, both for its own tag and for any tag |
| Block.ReadBlock | ConfigLib.cpp:315-322 | NotFound exactly when no block carries the tag; otherwise the first such block, read where it starts |
| Block.Overlay | ConfigLib.cpp:297 | the payload bytes that land in the caller's buffer, with the rest of the buffer untouched |
| Block.LoadConfig | ConfigLib.cpp:417-428 | with no block carrying the tag, the buffer is untouched and rc = -1; otherwise the found block's whole payload is copied over the start of the buffer, whatever the buffer's length, and it is copied even when the checksum fails; rc = 0 exactly when the block's checksum matched |
| Block.LoadConfigCells | ConfigLib.cpp:270-322 | from the first block with the tag at o: the length byte at o+8 is the number of bytes copied, they come from o+9 on, the rest of the buffer keeps its bytes, and rc = 0 exactly when the cell after the payload is 'X' |
| Block.WriteConfig | ConfigLib.cpp:401-414 | succeeds exactly when writeBlockToEEPROM does; a failure leaves the image unchanged |
| Block.SaveWithoutHintThenLoad | ConfigLib.cpp:196-322 | saving over the existing block and then reading by the tag returns the saved payload, with checksum ok, at the same place |
| Block.SaveAtStartThenLoad | ConfigLib.cpp:196-322 | saving at position 0 never fails for a tag of four or more characters, and reading by the tag then finds that block at 0 with the saved payload and checksum ok |
| Block.SameHeadBeforeRewrite | ConfigLib.cpp:228-237 | rewriting a block with the tag it already carries leaves every cell before p+8 as it was |
| Block.Erase | ConfigLib.cpp:483-489 | every cell becomes 'X' |
| Block.EraseForgetsEveryBlock | ConfigLib.cpp:483-489 | after an erase, the locator finds no block for any tag or none, from any start |
| LineReader.Start | ConfigLib.cpp:61 | a fresh reader is valid and has nothing pending |
| LineReader.Feed | ConfigLib.cpp:59-81 | keeps 0 <= pos <= cap-1; a value <= 0 or '\n' changes nothing and returns -1; '\r' returns the pending count, commits them as the buffer's C string and starts a new line; other bytes are appended while fewer than cap-1 are pending and dropped otherwise |
| LineReader.CommittedLine | ConfigLib.cpp:73-76 | the C string in a valid buffer is exactly the pending characters |
| Parsing.IndexOf | ConfigLib.cpp:32 | the first index of the separator, or the length when there is none |
| Parsing.Strtok | ConfigLib.cpp:473-475 | a token is non-empty and free of the delimiter and starts with the text's first byte when that is not the delimiter; no token exactly when only delimiters remain, and then nothing is left for the next call |
| Parsing.StrtokSplits | ConfigLib.cpp:473-475 | a token followed by the delimiter is returned, and the next call starts after the delimiter |
| Parsing.StrtokLast | ConfigLib.cpp:475 | a token that runs to the end is returned whole |
| Parsing.DecimalValue | ConfigLib.cpp:476-477 | the digits of n denote n |
| Parsing.AtoiOfDecimal | ConfigLib.cpp:476-477 | atoi reads back the decimal spelling of any natural number |
| Parsing.AtoiNoDigits | ConfigLib.cpp:506 | atoi of text starting with a non-digit, non-sign, non-space byte is 0 |
| Parsing.GetField | ConfigLib.cpp:29-44 | with a separator present: field + separator + rest is the message and the field has no separator; otherwise the whole message is the field and nothing remains |
| Parsing.Substring | ConfigLib.cpp:50-53 | with the bounds put in order, the result has hi - lo characters (end clamped to the length, none when lo is at or past the end), and its k-th character is the string's (lo + k)-th |
| Parsing.GetFieldOfSize | ConfigLib.cpp:47-56 | field + rest is the message; the field has min(numChars mod 2^16, length) characters |
| Parsing.FirstNonWhiteSpace | ConfigLib.cpp:615-622 | every byte before the result is white space, and the byte at it is not |
| Commands.DumpArgs | ConfigLib.cpp:470-477 | position and count are atoi of the two ","-tokens after the first ":", the same tokens the set command reads as key and value; no count without a position, and neither without a ':' |
| Commands.SetArgs | ConfigLib.cpp:518-522 | key and value are non-empty comma-free tokens; no value without a key, and neither when the line has no ':' |
| Commands.DumpArgsOfDecimal | ConfigLib.cpp:470-477 | "D:P,N" gives position P and count N |
| Commands.SetArgsOfKeyValue | ConfigLib.cpp:518-527 | "S:K,V" gives key K and value V |
| Commands.WriteHintAsWritten | ConfigLib.cpp:497-509 | as written, the position of every write line is 0: the first ","-token starts with 'W', so it is never "" and atoi of it is 0 |
| Commands.WriteHintIntended | ConfigLib.cpp:389 | the corrected parser gives no position (-1) for "W" and P for "W:P" |
| Commands.WriteHintDiffers | ConfigLib.cpp:497-509 | for "W" and "W:P" (P > 0), the as-written and corrected parsers disagree |
| Console.Dispatch | ConfigLib.cpp:445-535 | the reader is untouched and one event is recorded; only "Q" ends the loop; only "E" and write lines change the EEPROM; only read and set lines change the config, and never its length |
| Console.DispatchChoosesCommand | ConfigLib.cpp:445-535 | each action is chosen exactly by its test, in the source's order: first-letter tests for H, D, W, R and S, exact tests for Q, C, E and P |
| Console.UnknownLineIsInert | ConfigLib.cpp:530-533 | a line no command matches only records "unknown command" |
| Console.EraseCommandForgetsBlocks | ConfigLib.cpp:483-489 | "E" fills the EEPROM with 'X', after which no block is found |
| Console.DumpCommandArguments | ConfigLib.cpp:470-481 | "D:P,N" records a dump of N bytes from P and changes nothing |
| Console.SetCommandArguments | ConfigLib.cpp:518-529 | "S:K,V" passes K and V to setConfigItem and changes nothing else |
| Console.WriteThenReadKeepsConfig | ConfigLib.cpp:497-516 | any write line followed by "R", for a tag of four or more characters and at most 255 config bytes: the write succeeds at position 0, and the read leaves the config as it was and returns 0 |
| Console.WriteLineWritesAtZero | ConfigLib.cpp:497-510 | every write line, whatever follows the 'W', stores the config at position 0 and records whether that succeeded |
| Console.Step | ConfigLib.cpp:444-446 | a committed non-empty line is dispatched: its event is recorded, the EEPROM, config and quit flag are those the dispatch leaves, and nothing is left pending; anything else changes only the reader; the config length never changes |
| Console.Run | ConfigLib.cpp:444-535 | the reader stays valid, nothing changes once "Q" has been seen, events are only ever appended, and the config keeps its length |
| Console.RunSingleRead | ConfigLib.cpp:444-446 | the loop takes one read per pass: no input leaves the console as it is, and one read is exactly one Step unless "Q" has already been seen |
| Console.RunAppend | ConfigLib.cpp:444-535 | the loop resumes where it stopped: running over a and then over b is running over a + b, so a run is Step applied read by read until "Q" |
| Console.RunStopsAtQuit | ConfigLib.cpp:456-460 | input after the "Q" line is never read |
| Console.RunConfigUI | ConfigLib.cpp:431-442 | runConfigUI prints its help first: earlier events stay at the head, the help follows, and the config keeps its length |
| Console.DispatchCorrected | ConfigLib.cpp:389 | the console the help text describes: every line but a write line is dispatched as runConfigUI does; a write line takes its position from the corrected parser and records it |
| Console.CorrectedWriteThenReadKeepsConfig | ConfigLib.cpp:389 | with the corrected parser, "W" then "R" over an existing block that has room rewrites it in place, reports success, and reads the config back unchanged with rc 0 |
| Console.WriteCommandDiscrepancy | ConfigLib.cpp:497-509 | on "W" over an EEPROM with no block carrying the tag, runConfigUI writes at 0 and reports success, while the corrected console fails and leaves the EEPROM as it was |
| Startup.TruncDiv | ConfigLib.cpp:549 | C's integer division truncates toward zero: the remainder lies in [0, b) for a non-negative dividend and in (-b, 0] for a negative one |
| Startup.PollCount | ConfigLib.cpp:548-549 | the number of 500 ms polls that fit in the period; none for a period below 500 |
| Startup.Gate | ConfigLib.cpp:561-577 | takes at most min(count, available) reads; on selection, its last read is a carriage return and nothing is left pending |
| Startup.GateEndsAtFirstC | ConfigLib.cpp:564-578 | on selection, the last read is the carriage return that committed the first "C" line: among the lines the gate read, the last is "C" and none before it is "C" or "Q"; later reads, a "Q" line included, are left to runConfigUI |
| Startup.GateDecision | ConfigLib.cpp:561-577 | config mode is selected exactly when, among the lines committed in the window, the first "C" or "Q" line is "C" |
| Startup.QuitLineStopsGate | ConfigLib.cpp:575-577 | a "Q" line committed before any other line ends the gate, unselected, at the read that commits it |
| Startup.AfterGate | ConfigLib.cpp:581-584 | runConfigUI runs, from the EEPROM and the loaded config with a fresh buffer at position 0, on the reads after the gate's exactly when config mode was selected; the events start with printConfig, then the help when the console ran |
| Startup.InitConfig | ConfigLib.cpp:541-587 | the config is loaded and printed first; the console runs exactly when the gate selects it, and then it is runConfigUI on the reads after the gate's, whose last read was the carriage return that committed the first "C" line, starting from the EEPROM and the loaded config; a period under 500 ms never selects it; without selection nothing else changes; the config keeps its length |

## Left out

- EEPROM hardware, `Serial`, `delay` and `millis`: these are parameters, as described above.
- Reads and writes outside [0, 1024) are unchecked in the library. The model fixes a read there to 0xFF and drops the write.
- Logging and text output (`log`, `logToStream`, `sprintf_vargs`, `printConfigCommandHelp`, `dumpBytesFromEEPROMToConsole`) are left out. The dump and help commands only record an event.
- `dumpBlocksToConsole` is left out: it reads an uninitialised length after a checksum failure and overruns a fixed 64-byte buffer. The "C" command only records `BlocksDumped`.
- Caller callbacks: each `printConfig` call (the "P" command, and at start-up) is recorded as `ConfigPrinted`. `printConfigItemHelp` is part of the help and is not recorded separately. `setConfigItem` is a function parameter.
- The model assumes the caller supplies both `printConfig` and `setConfigItem`. The library calls them without a NULL check (ConfigLib.cpp:493, 526, 558); only `printConfigItemHelp` is checked (ConfigLib.cpp:381).
- The `setConfigItem` parameter is taken to keep the buffer's length: the callback writes into the caller's configLen bytes, which no call can resize.
- Block.LoadConfig: payload bytes past the end of the caller's buffer are not modelled. The C code writes them out of bounds. `copied` records how many bytes the C code writes.
- Parsing.Atoi: does not model `int` overflow for long digit runs.
- Commands.AtoiOf: `atoi(NULL)` (for example "D" with no arguments) is undefined behaviour in C. The model passes the missing token on as `None`.
- Locator.TagByte: for a tag shorter than four characters, bytes past its terminator are undefined in C. They are taken as 0.
- Signedness of `char` in the tag comparison is not modelled: bytes are compared as unsigned.
- The checksum is the library's placeholder. No real CRC is modelled.
- Startup.Gate: a -1 from `Serial.read()` is an input element like any other and costs a poll. What is left out is the polls after the input sequence ends: the model stops there, while the library would keep polling until the period runs out. Those reads would all be -1, which changes nothing, so the outcome is the same.
- Startup.InitConfig: the line buffers of `initConfig` and `runConfigUI` are uninitialised in C, so each is modelled as an arbitrary 32-byte parameter.

## Findings

| source | as written | input that shows it | evidently intended | confidence | as-written member | corrected member |
|---|---|---|---|---|---|---|
| ConfigLib.cpp:497-509 | the position is `atoi(strtok(line, ","))`; that token always starts with 'W', so it is never "" and `atoi` gives 0 | "W:100" writes at 0; "W" writes at 0 instead of over the block carrying the tag | "W:P" writes at P and "W" finds the block by its tag (position -1), parsed like the "D" and "S" commands | not executed | Commands.WriteHintAsWritten, Commands.WriteHintDiffers, Console.WriteCommandDiscrepancy | Commands.WriteHint, Commands.WriteHintIntended, Console.DispatchCorrected, Console.CorrectedWriteThenReadKeepsConfig |

The console model (`Console.Dispatch`, and with it `Console.Step`, `Console.Run` and `Startup.InitConfig`) follows the code as written: every write line writes at position 0. `Console.DispatchCorrected` is the console with the corrected parser.

=== FILE: block.dfy ===
/**
 The block format and the operations that write, read and erase blocks
 (`writeBlockToEEPROM`, `readBlockAtPosFromEEPROM`, `readBlockFromEEPROM`,
 `writeConfigToEEPROM`, `loadConfigFromEEPROM`, and the erase command's
 `writeByteToEEPROM(0, EPROM_CONFIG_END, 'X')`).

 A block on the EEPROM is
   "MGGG" ++ tag (4 bytes) ++ length (1 byte) ++ payload ++ checksum (1 byte).
 */
module Block {
  import opened Bytes
  import opened Eeprom
  import opened Checksum
  import opened Locator

  /** Bytes a block occupies besides its payload: marker, tag, length, checksum. */
  const Overhead: int := 10

  /** Cell offsets inside a block. */
  const TagOffset: int := MarkerLen
  const LengthOffset: int := TagOffset + TagSize
  const PayloadOffset: int := LengthOffset + 1

  /** The blockStartPos value that asks the writer to find the block by its tag. */
  const NoPosition: int := -1

  /** The length byte a payload of `n` bytes is recorded with: `(char) bufferLen`. */
  function LengthByte(n: nat): byte {
    (n % 256) as bv8
  }

  /** The checksum byte the writer appends: crc8_buffer over tag, length byte and payload in turn. */
  function WrittenChecksum(tag4: Str, payload: Str): byte {
    Crc8Buffer(Crc8Buffer(Crc8Buffer(0, tag4), [LengthByte(|payload|)]), payload)
  }

  /** The bytes writeBlockToEEPROM lays down, in the order it writes them. */
  function Frame(tag4: Str, payload: Str): (f: Str)
    requires |tag4| == TagSize
    ensures |f| == |payload| + Overhead
  {
    Marker + tag4 + [LengthByte(|payload|)] + payload + [WrittenChecksum(tag4, payload)]
  }

  datatype WriteError = TagTooShort | BlockNotFound

  /** What writeBlockToEEPROM leaves behind: on success the new image and its blockStartPos / blockLen outputs. */
  datatype WriteOutcome =
    | Written(image: Image, blockStart: int, blockLen: int)
    | WriteFailed(error: WriteError)

  /**
   writeBlockToEEPROM(tag, buffer, bufferLen, blockStartPos, blockLen).
   A tag shorter than four characters is refused. With blockStartPos = -1
   the block is written over the first block carrying the tag, and the
   write is refused when there is none; any other blockStartPos is used as
   the write position as it stands.
   */
  function WriteBlock(e: Image, tag: CStr, payload: Str, blockStartPos: int): (r: WriteOutcome)
    ensures r.WriteFailed? <==>
              |tag| < TagSize
              || (blockStartPos == NoPosition && forall o :: 0 <= o < Size ==> !IsBlockAt(e, Some(tag), o))
    ensures r.WriteFailed? && |tag| < TagSize ==> r.error == TagTooShort
    ensures r.Written? ==> r.blockLen == |payload| + Overhead
    ensures r.Written? && blockStartPos != NoPosition ==> r.blockStart == blockStartPos
    ensures r.Written? && blockStartPos == NoPosition ==>
              && 0 <= r.blockStart < Size
              && IsBlockAt(e, Some(tag), r.blockStart)
              && forall o :: 0 <= o < r.blockStart ==> !IsBlockAt(e, Some(tag), o)
  {
    if |tag| < TagSize then WriteFailed(TagTooShort)
    else
      var start := if blockStartPos == NoPosition then Locate(e, Some(tag), 0) else blockStartPos;
      if blockStartPos == NoPosition && start < 0 then WriteFailed(BlockNotFound)
      else Written(WriteBytes(e, start, Frame(tag[..TagSize], payload)), start, |payload| + Overhead)
  }

  /** Where each part of the frame sits, cell by cell. */
  lemma FrameCells(tag4: Str, payload: Str)
    requires |tag4| == TagSize
    ensures var f, n := Frame(tag4, payload), |payload|;
            && (forall k :: 0 <= k < TagOffset ==> f[k] == Marker[k])
            && (forall k :: 0 <= k < TagSize ==> f[TagOffset + k] == tag4[k])
            && f[LengthOffset] == LengthByte(n)
            && (forall k :: 0 <= k < n ==> f[PayloadOffset + k] == payload[k])
            && f[PayloadOffset + n] == CharX
  {
    var f, n := Frame(tag4, payload), |payload|;
    var head := Marker + tag4 + [LengthByte(n)];
    assert f == head + payload + [WrittenChecksum(tag4, payload)];
    assert |head| == PayloadOffset;
    forall k | 0 <= k < n
      ensures f[PayloadOffset + k] == payload[k]
    {
      assert (head + payload)[PayloadOffset + k] == payload[k];
    }
  }

  /** The image holds, cell by cell, the frame of `tag4` and `payload` at p. */
  predicate FrameAt(img: Image, p: int, tag4: Str, payload: Str)
    requires |tag4| == TagSize
    requires 0 <= p && p + |payload| + Overhead <= Size
  {
    && (forall k :: 0 <= k < TagOffset ==> img[p + k] == Marker[k])
    && (forall k :: 0 <= k < TagSize ==> img[p + TagOffset + k] == tag4[k])
    && img[p + LengthOffset] == LengthByte(|payload|)
    && (forall k :: 0 <= k < |payload| ==> img[p + PayloadOffset + k] == payload[k])
    && img[p + PayloadOffset + |payload|] == CharX
  }

  /** Writing a frame that fits in the region puts it there. */
  lemma WrittenFrameCells(e: Image, p: int, tag4: Str, payload: Str)
    requires |tag4| == TagSize
    requires 0 <= p && p + |payload| + Overhead <= Size
    ensures FrameAt(WriteBytes(e, p, Frame(tag4, payload)), p, tag4, payload)
  {
    var f := Frame(tag4, payload);
    var img := WriteBytes(e, p, f);
    FrameCells(tag4, payload);
    assert forall k :: 0 <= k < |f| ==> img[p + k] == f[k];
  }

  lemma LengthByteValue(n: nat)
    requires n <= 255
    ensures LengthByte(n) as int == n
  {
    assert n % 256 == n;
  }

  /** A frame with at most 255 payload bytes reads back as written, checksum matching. */
  lemma ReadFrame(img: Image, p: int, tag4: Str, payload: Str)
    requires |tag4| == TagSize && |payload| <= 255
    requires 0 <= p && p + |payload| + Overhead <= Size
    requires FrameAt(img, p, tag4, payload)
    ensures ReadBlockAtPos(img, p) == BlockRead(tag4, payload, true)
  {
    var b := ReadBlockAtPos(img, p);
    ReadFrameTag(img, p, tag4, payload);
    ReadFrameData(img, p, tag4, payload);
    assert b.tag == tag4;
    assert b.data == payload;
    assert Read(img, p + PayloadOffset + |payload|) == CharX;
  }

  lemma ReadFrameTag(img: Image, p: int, tag4: Str, payload: Str)
    requires |tag4| == TagSize
    requires 0 <= p && p + |payload| + Overhead <= Size
    requires FrameAt(img, p, tag4, payload)
    ensures ReadBlockAtPos(img, p).tag == tag4
  {
    var b := ReadBlockAtPos(img, p);
    forall k | 0 <= k < TagSize
      ensures b.tag[k] == tag4[k]
    {
      assert Read(img, p + TagOffset + k) == img[p + TagOffset + k];
    }
  }

  lemma ReadFrameData(img: Image, p: int, tag4: Str, payload: Str)
    requires |tag4| == TagSize && |payload| <= 255
    requires 0 <= p && p + |payload| + Overhead <= Size
    requires FrameAt(img, p, tag4, payload)
    ensures ReadBlockAtPos(img, p).data == payload
  {
    var n := |payload|;
    var b := ReadBlockAtPos(img, p);
    LengthByteValue(n);
    assert Read(img, p + LengthOffset) == LengthByte(n);
    assert |b.data| == n;
    forall k | 0 <= k < n
      ensures b.data[k] == payload[k]
    {
      assert b.data[k] == Read(img, p + PayloadOffset + k);
      assert Read(img, p + PayloadOffset + k) == img[p + PayloadOffset + k];
    }
  }

  /**
   The cells a successful write leaves: outside [p, p + n + 10) nothing
   changes, and, when the block fits in the region, the marker, the tag's
   first four bytes, the length byte n mod 256, the payload and the
   checksum 'X' sit at their offsets from p.
   */
  lemma WriteLaysDownFrame(e: Image, tag: CStr, payload: Str, blockStartPos: int)
    requires WriteBlock(e, tag, payload, blockStartPos).Written?
    ensures var r := WriteBlock(e, tag, payload, blockStartPos);
            var p, n := r.blockStart, |payload|;
            && (forall j :: 0 <= j < Size && !(p <= j < p + n + Overhead) ==> r.image[j] == e[j])
            && (0 <= p && p + n + Overhead <= Size ==>
                  && r.image[p..p + TagOffset] == Marker
                  && r.image[p + TagOffset..p + LengthOffset] == tag[..TagSize]
                  && r.image[p + LengthOffset] == LengthByte(n)
                  && r.image[p + PayloadOffset..p + PayloadOffset + n] == payload
                  && r.image[p + PayloadOffset + n] == CharX)
  {
    var r := WriteBlock(e, tag, payload, blockStartPos);
    var p, n := r.blockStart, |payload|;
    assert r.image == WriteBytes(e, p, Frame(tag[..TagSize], payload));
    if 0 <= p && p + n + Overhead <= Size {
      WrittenFrameCells(e, p, tag[..TagSize], payload);
      FrameSlices(r.image, p, tag[..TagSize], payload);
    }
  }

  /** A frame in place, seen as slices of the image. */
  lemma FrameSlices(img: Image, p: int, tag4: Str, payload: Str)
    requires |tag4| == TagSize
    requires 0 <= p && p + |payload| + Overhead <= Size
    requires FrameAt(img, p, tag4, payload)
    ensures img[p..p + TagOffset] == Marker
    ensures img[p + TagOffset..p + LengthOffset] == tag4
    ensures img[p + PayloadOffset..p + PayloadOffset + |payload|] == payload
  {
    assert img[p..p + TagOffset] == Marker by {
      forall k | 0 <= k < TagOffset ensures img[p..p + TagOffset][k] == Marker[k] {
        assert img[p..p + TagOffset][k] == img[p + k];
      }
    }
    assert img[p + TagOffset..p + LengthOffset] == tag4 by {
      forall k | 0 <= k < TagSize ensures img[p + TagOffset..p + LengthOffset][k] == tag4[k] {
        assert img[p + TagOffset..p + LengthOffset][k] == img[p + TagOffset + k];
      }
    }
    var n := |payload|;
    forall k | 0 <= k < n ensures img[p + PayloadOffset..p + PayloadOffset + n][k] == payload[k] {
      assert img[p + PayloadOffset..p + PayloadOffset + n][k] == img[p + PayloadOffset + k];
    }
  }

  /** What readBlockAtPosFromEEPROM hands back: the tag and payload it copied out, and whether the checksum matched. */
  datatype BlockRead = BlockRead(tag: Str, data: Str, checksumOk: bool) {
    /** The function's return value: 0 on a checksum match, -1 otherwise. */
    function Rc(): int {
      if checksumOk then 0 else -1
    }

    /** The blockLen output, set on a match: the cells from the marker through the checksum. */
    function BlockLen(): int {
      |data| + Overhead
    }
  }

  /**
   readBlockAtPosFromEEPROM(blockLocation, ...). The marker cells are read
   but never checked, the stored length byte decides how many payload bytes
   are copied out (the caller's bufferLen plays no part), and the tag and
   payload are copied out before the checksum is compared. On a match
   bytesRead is the payload length and blockLen is that plus 10.
   */
  function ReadBlockAtPos(e: Image, loc: int): (r: BlockRead)
    ensures |r.tag| == TagSize
    ensures forall k :: 0 <= k < TagSize ==> r.tag[k] == Read(e, loc + TagOffset + k)
    ensures |r.data| == Read(e, loc + LengthOffset) as int
    ensures forall k :: 0 <= k < |r.data| ==> r.data[k] == Read(e, loc + PayloadOffset + k)
    ensures r.checksumOk <==> Read(e, loc + PayloadOffset + |r.data|) == CharX
  {
    var tag := ReadBytes(e, loc + TagOffset, TagSize);
    var len := Read(e, loc + LengthOffset);
    var n := len as int;
    var data := ReadBytes(e, loc + PayloadOffset, n);
    var crc := Crc8Fold(Crc8Fold(Crc8Fold(0, tag), [len]), data);
    var stored := Read(e, loc + PayloadOffset + n);
    ReaderChecksum(tag, len, data);
    BlockRead(tag, data, stored == crc)
  }

  /** A frame laid down at p is where the locator stops, for the frame's tag and for any block. */
  lemma FrameIsBlock(img: Image, p: int, tag: CStr, payload: Str)
    requires |tag| >= TagSize
    requires 0 <= p && p + |payload| + Overhead <= Size
    requires FrameAt(img, p, tag[..TagSize], payload)
    ensures IsBlockAt(img, Some(tag), p) && IsBlockAt(img, None, p)
  {
    assert img[p] == Marker[0] && img[p + 1] == Marker[1];
    assert img[p + 2] == Marker[2] && img[p + 3] == Marker[3];
    assert img[p + TagOffset] == tag[0] && img[p + TagOffset + 1] == tag[1];
    assert img[p + TagOffset + 2] == tag[2] && img[p + TagOffset + 3] == tag[3];
  }

  /**
   Round trip: a block written at p that fits in the region, with at most
   255 payload bytes, reads back from p with its checksum matching, the
   tag's first four bytes and exactly the payload; blockLen is the payload
   length plus 10 on both sides.
   */
  lemma ReadAfterWrite(e: Image, tag: CStr, payload: Str, blockStartPos: int)
    requires |payload| <= 255
    requires WriteBlock(e, tag, payload, blockStartPos).Written?
    requires var p := WriteBlock(e, tag, payload, blockStartPos).blockStart;
             0 <= p && p + |payload| + Overhead <= Size
    ensures var r := WriteBlock(e, tag, payload, blockStartPos);
            && ReadBlockAtPos(r.image, r.blockStart) == BlockRead(tag[..TagSize], payload, true)
            && r.blockLen == |payload| + Overhead
            && ReadBlockAtPos(r.image, r.blockStart).BlockLen() == r.blockLen
  {
    var r := WriteBlock(e, tag, payload, blockStartPos);
    WrittenFrameCells(e, r.blockStart, tag[..TagSize], payload);
    ReadFrame(r.image, r.blockStart, tag[..TagSize], payload);
  }

  /** After a successful write at p, scanning from p for the tag, or for any block, stops at p. */
  lemma LocateAfterWrite(e: Image, tag: CStr, payload: Str, blockStartPos: int)
    requires WriteBlock(e, tag, payload, blockStartPos).Written?
    requires var p := WriteBlock(e, tag, payload, blockStartPos).blockStart;
             0 <= p && p + |payload| + Overhead <= Size
    ensures var r := WriteBlock(e, tag, payload, blockStartPos);
            && Locate(r.image, Some(tag), r.blockStart) == r.blockStart
            && Locate(r.image, None, r.blockStart) == r.blockStart
  {
    var r := WriteBlock(e, tag, payload, blockStartPos);
    var p := r.blockStart;
    WrittenFrameCells(e, p, tag[..TagSize], payload);
    FrameIsBlock(r.image, p, tag, payload);
    LocateIsLeastMatch(r.image, Some(tag), p, p);
    LocateIsLeastMatch(r.image, None, p, p);
  }

  /** What follows a readBlockFromEEPROM call: no block with the tag, or where it was found and what was read there. */
  datatype Lookup = NotFound | Found(blockStart: int, block: BlockRead) {
    /** readBlockFromEEPROM's return value. */
    function Rc(): int {
      if NotFound? then -1 else block.Rc()
    }
  }

  /** readBlockFromEEPROM: locate the first block with the tag from offset 0 and read it there. */
  function ReadBlock(e: Image, tag: CStr): (r: Lookup)
    ensures r.NotFound? <==> forall o :: 0 <= o < Size ==> !IsBlockAt(e, Some(tag), o)
    ensures r.Found? ==>
              && 0 <= r.blockStart < Size
              && IsBlockAt(e, Some(tag), r.blockStart)
              && (forall o :: 0 <= o < r.blockStart ==> !IsBlockAt(e, Some(tag), o))
              && r.block == ReadBlockAtPos(e, r.blockStart)
  {
    var o := Locate(e, Some(tag), 0);
    if o < 0 then NotFound else Found(o, ReadBlockAtPos(e, o))
  }

  /**
   The bytes a copy of `data` into a caller buffer leaves in that buffer.
   Bytes past the buffer's end overrun the caller's memory; the model
   keeps only what lands inside the buffer.
   */
  function Overlay(buf: Str, data: Str): (r: Str)
    ensures |r| == |buf|
    ensures forall k :: 0 <= k < |buf| ==> r[k] == (if k < |data| then data[k] else buf[k])
  {
    if |data| <= |buf| then data + buf[|data|..] else data[..|buf|]
  }

  /**
   loadConfigFromEEPROM's effect: `config` is the caller's buffer, `copied`
   the number of payload bytes the read wrote starting at the buffer (which
   may exceed the buffer), and `rc` readBlockFromEEPROM's return value.
   */
  datatype Loaded = Loaded(config: Str, copied: nat, rc: int)

  /**
   loadConfigFromEEPROM(tag, config, configLen). When no block carries the
   tag the buffer is untouched. Otherwise the stored length byte's worth of
   payload is copied in whatever the buffer's length, and it is copied even
   when the checksum then fails; only the return value tells the two apart.
   */
  function LoadConfig(e: Image, tag: CStr, config: Str): (r: Loaded)
    ensures |r.config| == |config|
    ensures ReadBlock(e, tag).NotFound? ==> r == Loaded(config, 0, -1)
    ensures ReadBlock(e, tag).Found? ==>
              var b := ReadBlock(e, tag).block;
              && r.copied == |b.data|
              && (forall k :: 0 <= k < |config| && k < |b.data| ==> r.config[k] == b.data[k])
              && (forall k :: |b.data| <= k < |config| ==> r.config[k] == config[k])
              && (r.rc == 0 <==> b.checksumOk)
  {
    match ReadBlock(e, tag)
    case NotFound => Loaded(config, 0, -1)
    case Found(_, b) => Loaded(Overlay(config, b.data), |b.data|, b.Rc())
  }

  /**
   loadConfigFromEEPROM cell by cell: from the first block carrying the tag
   at o, the length byte at o + 8 says how many bytes are copied, they come
   from o + 9 on, the rest of the buffer keeps its bytes, and the return
   value is 0 exactly when the cell after the payload holds 'X'.
   */
  lemma LoadConfigCells(e: Image, tag: CStr, config: Str)
    requires ReadBlock(e, tag).Found?
    ensures var o, r := ReadBlock(e, tag).blockStart, LoadConfig(e, tag, config);
            && r.copied == Read(e, o + LengthOffset) as int
            && (forall k :: 0 <= k < |config| && k < r.copied ==> r.config[k] == Read(e, o + PayloadOffset + k))
            && (forall k :: r.copied <= k < |config| ==> r.config[k] == config[k])
            && (r.rc == 0 <==> Read(e, o + PayloadOffset + r.copied) == CharX)
  {
    var found := ReadBlock(e, tag);
    var o, b := found.blockStart, found.block;
    assert b == ReadBlockAtPos(e, o);
    var r := LoadConfig(e, tag, config);
    assert r.copied == |b.data|;
  }

  /**
   writeConfigToEEPROM(tag, config, configLen, pos): write the config as a
   block and report success; on failure the image is left as it was.
   */
  function WriteConfig(e: Image, tag: CStr, config: Str, pos: int): (r: (Image, bool))
    ensures !r.1 ==> r.0 == e
    ensures r.1 <==> WriteBlock(e, tag, config, pos).Written?
    ensures r.1 ==> r.0 == WriteBlock(e, tag, config, pos).image
  {
    match WriteBlock(e, tag, config, pos)
    case Written(img, _, _) => (img, true)
    case WriteFailed(_) => (e, false)
  }

  /**
   Saving at position 0 and then loading returns the saved payload: the
   write cannot fail, and the block it lays down at 0 is the first one the
   locator meets.
   */
  lemma SaveAtStartThenLoad(e: Image, tag: CStr, payload: Str)
    requires |tag| >= TagSize && |payload| <= 255
    ensures WriteBlock(e, tag, payload, 0).Written?
    ensures var r := WriteBlock(e, tag, payload, 0);
            ReadBlock(r.image, tag) == Found(0, BlockRead(tag[..TagSize], payload, true))
  {
    ReadAfterWrite(e, tag, payload, 0);
    LocateAfterWrite(e, tag, payload, 0);
  }

  /**
   Saving without a position over an existing block and then loading
   returns the saved payload: the rewrite lands on the first block with the
   tag, which rewrites its own marker and tag unchanged, so the locator
   still stops there.
   */
  lemma SaveWithoutHintThenLoad(e: Image, tag: CStr, payload: Str)
    requires |tag| >= TagSize && |payload| <= 255
    requires exists o :: 0 <= o < Size && IsBlockAt(e, Some(tag), o)
    requires var p := Locate(e, Some(tag), 0); p + |payload| + Overhead <= Size
    ensures WriteBlock(e, tag, payload, NoPosition).Written?
    ensures var r := WriteBlock(e, tag, payload, NoPosition);
            ReadBlock(r.image, tag) == Found(r.blockStart, BlockRead(tag[..TagSize], payload, true))
  {
    var p := Locate(e, Some(tag), 0);
    var r := WriteBlock(e, tag, payload, NoPosition);
    assert r.Written? && r.blockStart == p;
    ReadAfterWrite(e, tag, payload, NoPosition);
    var e' := r.image;
    SameHeadBeforeRewrite(e, tag, payload, p);
    forall o | 0 <= o < p
      ensures !IsBlockAt(e', Some(tag), o)
    {
      IsBlockAtAgree(e, e', Some(tag), o);
    }
    WrittenFrameCells(e, p, tag[..TagSize], payload);
    FrameIsBlock(e', p, tag, payload);
    LocateIsLeastMatch(e', Some(tag), 0, p);
  }

  /**
   Rewriting the block at p with the tag it already carries leaves every
   cell before p + 8 as it was: nothing before p is written, and the marker
   and tag are rewritten with the values they held.
   */
  lemma SameHeadBeforeRewrite(e: Image, tag: CStr, payload: Str, p: int)
    requires |tag| >= TagSize
    requires 0 <= p && p + |payload| + Overhead <= Size
    requires IsBlockAt(e, Some(tag), p)
    ensures var e' := WriteBytes(e, p, Frame(tag[..TagSize], payload));
            forall j :: 0 <= j < p + LengthOffset ==> e[j] == e'[j]
  {
    var e' := WriteBytes(e, p, Frame(tag[..TagSize], payload));
    WrittenFrameCells(e, p, tag[..TagSize], payload);
    BlockHead(e, tag, p);
    assert forall k :: 0 <= k < TagSize ==> tag[..TagSize][k] == tag[k];
    HeadsAgree(e, e', tag, p);
  }

  /** Two images holding the same marker and tag from `p` agree on those eight cells. */
  lemma HeadsAgree(e: Image, e': Image, tag: CStr, p: int)
    requires |tag| >= TagSize && 0 <= p && p + LengthOffset <= Size
    requires forall k :: 0 <= k < TagOffset ==> e[p + k] == Marker[k] && e'[p + k] == Marker[k]
    requires forall k :: 0 <= k < TagSize ==> e[p + TagOffset + k] == tag[k] && e'[p + TagOffset + k] == tag[k]
    ensures forall j :: p <= j < p + LengthOffset ==> e[j] == e'[j]
  {
    forall j | p <= j < p + LengthOffset
      ensures e[j] == e'[j]
    {
      var k := j - p;
      if k < TagOffset {
        assert e[p + k] == Marker[k] == e'[p + k];
      } else {
        var t := k - TagOffset;
        assert e[p + TagOffset + t] == tag[t] == e'[p + TagOffset + t];
      }
    }
  }

  /** The cells of a block's head: the marker, then the tag's first four bytes. */
  lemma BlockHead(e: Image, tag: CStr, p: int)
    requires |tag| >= TagSize
    requires 0 <= p && p + LengthOffset <= Size
    requires IsBlockAt(e, Some(tag), p)
    ensures forall k :: 0 <= k < TagOffset ==> e[p + k] == Marker[k]
    ensures forall k :: 0 <= k < TagSize ==> e[p + TagOffset + k] == tag[k]
  {
    assert Read(e, p) == e[p] && Read(e, p + 1) == e[p + 1];
    assert Read(e, p + 2) == e[p + 2] && Read(e, p + 3) == e[p + 3];
    assert Read(e, p + 4) == e[p + 4] && Read(e, p + 5) == e[p + 5];
    assert Read(e, p + 6) == e[p + 6] && Read(e, p + 7) == e[p + 7];
  }

  /** The erase command: writeByteToEEPROM(0, EPROM_CONFIG_END, 'X'). */
  function Erase(e: Image): (r: Image)
    ensures forall j :: 0 <= j < Size ==> r[j] == CharX
  {
    Fill(e, 0, Size, CharX)
  }

  /** After an erase no scan finds a block, for any tag or none, from any offset. */
  lemma EraseForgetsEveryBlock(e: Image)
    ensures forall tag: Option<CStr>, s: int :: Locate(Erase(e), tag, s) == -1
  {
    var r := Erase(e);
    forall tag: Option<CStr>, s: int
      ensures Locate(r, tag, s) == -1
    {
      forall o | s <= o < Size
        ensures !IsBlockAt(r, tag, o)
      {
        assert Read(r, o) != CharM;
      }
    }
  }
}

=== FILE: bytes.dfy ===
/**
 Bytes, C strings and the few character constants the configuration library
 compares against. Everything the library touches is an 8-bit value: EEPROM
 cells, characters read from the serial stream, and the NUL-terminated
 strings held in fixed-size line buffers.
 */
module Bytes {

  type byte = bv8

  /** A run of bytes: an EEPROM range, a payload, or the contents of a buffer. */
  type Str = seq<byte>

  datatype Option<+T> = None | Some(value: T)

  /** True when no byte of `s` is NUL, so `s` can be the text of a C string. */
  predicate NoNul(s: Str) {
    forall i :: 0 <= i < |s| ==> s[i] != 0
  }

  /** The text of a C string: the bytes before its terminating NUL. */
  type CStr = s: Str | NoNul(s)

  // Character constants, as the bytes they are on the wire and in EEPROM.
  const LF: byte := 0x0A       // '\n'
  const CR: byte := 0x0D       // '\r'
  const Space: byte := 0x20    // ' '
  const Plus: byte := 0x2B     // '+'
  const Comma: byte := 0x2C    // ','
  const Minus: byte := 0x2D    // '-'
  const Zero: byte := 0x30     // '0'
  const Nine: byte := 0x39     // '9'
  const Colon: byte := 0x3A    // ':'
  const CharC: byte := 0x43    // 'C'
  const CharD: byte := 0x44    // 'D'
  const CharE: byte := 0x45    // 'E'
  const CharG: byte := 0x47    // 'G'
  const CharH: byte := 0x48    // 'H'
  const CharM: byte := 0x4D    // 'M'
  const CharP: byte := 0x50    // 'P'
  const CharQ: byte := 0x51    // 'Q'
  const CharR: byte := 0x52    // 'R'
  const CharS: byte := 0x53    // 'S'
  const CharW: byte := 0x57    // 'W'
  const CharX: byte := 0x58    // 'X'

  /**
   The C string held in a buffer, as `strlen`/`strcmp` see it: the bytes
   up to the first NUL, or the whole buffer when it holds none.
   */
  function CString(buf: Str): (s: CStr)
    ensures |s| <= |buf| && s == buf[..|s|]
    ensures |s| < |buf| ==> buf[|s|] == 0
  {
    if buf == [] || buf[0] == 0 then [] else [buf[0]] + CString(buf[1..])
  }
}

=== FILE: checksum.dfy ===
/**
 The block checksum. The library ships a placeholder "8-bit CRC": both
 `crc8` (one byte at a time, used by the reader) and `crc8_buffer` (a
 whole run, used by the writer) ignore their input and set the running
 value to 'X'. The model keeps that placeholder exactly, so a block's
 checksum byte is 'X' whatever it holds, and corruption detection only
 notices a checksum cell that is not 'X'.
 */
module Checksum {
  import opened Bytes

  /** crc8: fold one byte into the running checksum; the placeholder ignores both. */
  function Crc8(crc: byte, m: byte): (r: byte)
    ensures r == CharX
  {
    CharX
  }

  /**
   crc8_buffer: fold a run of bytes into the running checksum; the
   placeholder ignores both. On a non-empty run it agrees with folding crc8
   over the bytes one at a time.
   */
  function Crc8Buffer(crc: byte, buf: Str): (r: byte)
    ensures r == CharX
    ensures buf != [] ==> r == Crc8Fold(crc, buf)
  {
    FoldIsStub(crc, buf);
    CharX
  }

  /** The running checksum after `crc8` has been applied to each byte of `bytes` in order. */
  function Crc8Fold(crc: byte, bytes: Str): byte
    decreases |bytes|
  {
    if bytes == [] then crc else Crc8Fold(Crc8(crc, bytes[0]), bytes[1..])
  }

  /** Folding any non-empty run lands on the stub value; folding nothing keeps the start value. */
  lemma {:induction false} FoldIsStub(crc: byte, bytes: Str)
    ensures Crc8Fold(crc, bytes) == (if bytes == [] then crc else CharX)
    decreases |bytes|
  {
    if bytes != [] {
      FoldIsStub(Crc8(crc, bytes[0]), bytes[1..]);
    }
  }

  /**
   The writer checksums a block as three runs (tag, length byte, payload)
   with crc8_buffer; the reader checksums the same bytes one at a time with
   crc8. The two agree whenever the tag run is non-empty, which is what
   lets a freshly written block read back as valid.
   */
  lemma WriterAgreesWithReader(tag: Str, len: byte, payload: Str)
    requires |tag| > 0
    ensures Crc8Buffer(Crc8Buffer(Crc8Buffer(0, tag), [len]), payload)
         == Crc8Fold(Crc8Fold(Crc8Fold(0, tag), [len]), payload)
  {
    FoldIsStub(0, tag);
    FoldIsStub(Crc8Fold(0, tag), [len]);
    FoldIsStub(Crc8Fold(Crc8Fold(0, tag), [len]), payload);
  }

  /** The checksum the reader computes over a block with a non-empty tag is 'X', whatever the bytes. */
  lemma ReaderChecksum(tag: Str, len: byte, payload: Str)
    requires |tag| > 0
    ensures Crc8Fold(Crc8Fold(Crc8Fold(0, tag), [len]), payload) == CharX
  {
    WriterAgreesWithReader(tag, len, payload);
  }
}

=== FILE: commands.dfy ===
/**
 How runConfigUI pulls the arguments out of a committed command line with
 strtok and atoi: "D:P,N" (dump N bytes from P), "S:K,V" (set item K to
 V) and "W" / "W:P" (write the config, at position P when one is given).
 */
module Commands {
  import opened Bytes
  import opened Parsing
  import Block

  /** atoi applied to a strtok result. A NULL token (None) is passed on: atoi(NULL) is undefined in C. */
  function AtoiOf(tok: Option<Str>): Option<int> {
    match tok
    case None => None
    case Some(t) => Some(Atoi(t))
  }

  /**
   The dump command's arguments: strtok(line, ":") skips the command,
   then two strtok(NULL, ",") calls give the position and the count.
   */
  function DumpArgs(line: Str): (r: (Option<int>, Option<int>))
    ensures r == (AtoiOf(SetArgs(line).0), AtoiOf(SetArgs(line).1))
    ensures r.0.None? ==> r.1.None?
    ensures Colon !in line ==> r == (None, None)
  {
    var (_, afterCmd) := Strtok(line, Colon);
    var (posStr, afterPos) := Strtok(afterCmd, Comma);
    var (numStr, _) := Strtok(afterPos, Comma);
    (AtoiOf(posStr), AtoiOf(numStr))
  }

  /**
   The set command's arguments, found the same way: the first two
   ","-tokens after the first ":". Each is non-empty and free of commas,
   there is no value without a key, and a line without a ':' has neither.
   */
  function SetArgs(line: Str): (r: (Option<Str>, Option<Str>))
    ensures r.0.Some? ==> r.0.value != [] && Comma !in r.0.value
    ensures r.1.Some? ==> r.1.value != [] && Comma !in r.1.value
    ensures r.0.None? ==> r.1.None?
    ensures Colon !in line ==> r == (None, None)
  {
    var (_, afterCmd) := Strtok(line, Colon);
    assert Colon !in line ==> afterCmd == [] by {
      if Colon !in line && line != [] {
        assert SkipLeading(line, Colon) == line;
      }
    }
    var (key, afterKey) := Strtok(afterCmd, Comma);
    var (val, _) := Strtok(afterKey, Comma);
    (key, val)
  }

  /** "D:" ++ P ++ "," ++ N, for decimal P and N, dumps N bytes from P. */
  lemma DumpArgsOfDecimal(p: nat, n: nat)
    ensures DumpArgs([CharD, Colon] + Decimal(p) + [Comma] + Decimal(n)) == (Some(p), Some(n))
  {
    var ps, ns := Decimal(p), Decimal(n);
    NoCommaInDigits(ps);
    NoCommaInDigits(ns);
    DumpArgsOfTokens(ps, ns);
    AtoiOfDecimal(p);
    AtoiOfDecimal(n);
  }

  /** "D:" ++ P ++ "," ++ N, for tokens P and N without commas, is read as atoi(P) and atoi(N). */
  lemma DumpArgsOfTokens(ps: Str, ns: Str)
    requires ps != [] && ns != [] && Comma !in ps && Comma !in ns
    ensures DumpArgs([CharD, Colon] + ps + [Comma] + ns) == (Some(Atoi(ps)), Some(Atoi(ns)))
  {
    var line := [CharD, Colon] + ps + [Comma] + ns;
    assert line == [CharD] + [Colon] + (ps + [Comma] + ns);
    StrtokSplits([CharD], Colon, ps + [Comma] + ns);
    StrtokSplits(ps, Comma, ns);
    StrtokLast(ns, Comma);
  }

  lemma NoCommaInDigits(s: Str)
    requires AllDigits(s)
    ensures Comma !in s
  {
  }

  /** "S:" ++ K ++ "," ++ V, for a non-empty key and value without commas, sets K to V. */
  lemma SetArgsOfKeyValue(key: Str, val: Str)
    requires key != [] && val != []
    requires Comma !in key && Comma !in val
    ensures SetArgs([CharS, Colon] + key + [Comma] + val) == (Some(key), Some(val))
  {
    var line := [CharS, Colon] + key + [Comma] + val;
    assert line == [CharS] + [Colon] + (key + [Comma] + val);
    StrtokSplits([CharS], Colon, key + [Comma] + val);
    StrtokSplits(key, Comma, val);
    StrtokLast(val, Comma);
  }

  /**
   The write command's position as runConfigUI computes it: atoi of the
   first ","-token, or NoPosition (-1) when that token is "". The line
   starts with 'W', so the token does too: it is never "", and atoi of it
   is 0. Every write line asks for position 0.
   */
  function WriteHintAsWritten(line: Str): (r: int)
    requires line != [] && line[0] == CharW
    ensures r == 0
  {
    var posStr := Strtok(line, Comma).0;
    AtoiNoDigits(posStr.value);
    if posStr.value == [] then Block.NoPosition else Atoi(posStr.value)
  }

  /**
   The write command's position as the help text ("W:P = Write config to
   EEPROM Optional (P=Pos)") describes it, parsed the way the dump and set
   commands parse theirs: strtok(line, ":") then strtok(NULL, ","); no
   position token gives NoPosition (-1), so the block is found by its tag.
   */
  function WriteHint(line: Str): int {
    var (_, afterCmd) := Strtok(line, Colon);
    var (posStr, _) := Strtok(afterCmd, Comma);
    match posStr
    case None => Block.NoPosition
    case Some(s) => Atoi(s)
  }

  /** "W" writes over the block found by its tag; "W:" ++ P writes at P. */
  lemma WriteHintIntended(p: nat)
    ensures WriteHint([CharW]) == Block.NoPosition
    ensures WriteHint([CharW, Colon] + Decimal(p)) == p
  {
    StrtokLast([CharW], Colon);
    var ps := Decimal(p);
    assert [CharW, Colon] + ps == [CharW] + [Colon] + ps;
    StrtokSplits([CharW], Colon, ps);
    NoCommaInDigits(ps);
    StrtokLast(ps, Comma);
    AtoiOfDecimal(p);
  }

  /**
   The discrepancy on concrete lines: "W" writes at 0 instead of over the
   block found by its tag, and "W:" ++ P with P > 0 writes at 0 instead of P.
   */
  lemma WriteHintDiffers(p: nat)
    requires p > 0
    ensures WriteHintAsWritten([CharW]) == 0 && WriteHint([CharW]) == Block.NoPosition
    ensures WriteHintAsWritten([CharW, Colon] + Decimal(p)) == 0
    ensures WriteHint([CharW, Colon] + Decimal(p)) == p
  {
    WriteHintIntended(p);
  }
}

=== FILE: console.dfy ===
/**
 The interactive configuration console (runConfigUI): characters from the
 serial port go through the line reader, and each committed non-empty line
 is dispatched as a command against the EEPROM image and the caller's
 config buffer until a "Q" line ends the loop.

 Text output (the help listing, hex dumps, log lines) is not modelled; each
 dispatched line instead records one `Event` saying which action it took,
 with its arguments. The caller's setConfigItem callback is a parameter:
 what it does to the config bytes for a key and a value.
 */
module Console {
  import opened Bytes
  import opened Eeprom
  import opened Locator
  import opened Block
  import opened LineReader
  import opened Parsing
  import opened Commands

  datatype Event =
    | HelpPrinted                                       // 'H': printConfigCommandHelp
    | ConfigModeExited                                  // "Q"
    | BlocksDumped                                      // "C": dumpBlocksToConsole(0)
    | BytesDumped(pos: Option<int>, num: Option<int>)   // 'D': dumpBytesFromEEPROMToConsole(pos, num)
    | Erased                                            // "E"
    | ConfigPrinted                                     // "P": printConfig callback
    | ConfigWritten(at: int, ok: bool)                  // 'W': writeConfigToEEPROM(tag, config, len, pos)
    | ConfigRead(rc: int)                               // 'R': loadConfigFromEEPROM
    | ItemSet(key: Option<Str>, val: Option<Str>)       // 'S': setConfigItem callback
    | UnknownCommand(line: Str)

  /**
   setConfigItem(key, val), as the config bytes it leaves; a NULL token is
   None. The callback updates the caller's buffer in place, whose length
   (configLen) is fixed for the whole session, so it keeps the length.
   */
  type SetItem = f: (Str, Option<Str>, Option<Str>) -> Str
    | forall config, k, v :: |f(config, k, v)| == |config|
    witness (config: Str, k: Option<Str>, v: Option<Str>) => config

  /** The console's state: the EEPROM, the caller's config buffer, the line reader, whether "Q" was seen, and what was done. */
  datatype Console = Console(image: Image, config: Str, reader: Reader, quit: bool, events: seq<Event>)

  predicate ValidConsole(c: Console) {
    Valid(c.reader, LineBufferSize)
  }

  /** The event a dispatched line records, in the order runConfigUI tests for the commands. */
  function EventOf(c: Console, tag: CStr, line: Str): Event
    requires line != []
  {
    if line[0] == CharH then HelpPrinted
    else if line == [CharQ] then ConfigModeExited
    else if line == [CharC] then BlocksDumped
    else if line[0] == CharD then var (p, n) := DumpArgs(line); BytesDumped(p, n)
    else if line == [CharE] then Erased
    else if line == [CharP] then ConfigPrinted
    else if line[0] == CharW then
      var pos := WriteHintAsWritten(line);
      ConfigWritten(pos, WriteConfig(c.image, tag, c.config, pos).1)
    else if line[0] == CharR then ConfigRead(LoadConfig(c.image, tag, c.config).rc)
    else if line[0] == CharS then var (k, v) := SetArgs(line); ItemSet(k, v)
    else UnknownCommand(line)
  }

  /**
   One committed, non-empty line through runConfigUI's chain of tests. Only
   "Q" ends the loop, only "E" and write lines change the EEPROM, and only
   read and set lines change the config, whose length stays the same;
   every line records one event.
   */
  function Dispatch(c: Console, tag: CStr, setItem: SetItem, line: Str): (c': Console)
    requires line != []
    ensures c'.reader == c.reader
    ensures c'.events == c.events + [EventOf(c, tag, line)]
    ensures c'.quit <==> c.quit || line == [CharQ]
    ensures c'.image != c.image ==> line == [CharE] || line[0] == CharW
    ensures c'.config != c.config ==> line[0] == CharR || line[0] == CharS
    ensures |c'.config| == |c.config|
  {
    var c1 := c.(events := c.events + [EventOf(c, tag, line)]);
    if line[0] == CharH then c1
    else if line == [CharQ] then c1.(quit := true)
    else if line == [CharC] then c1
    else if line[0] == CharD then c1
    else if line == [CharE] then c1.(image := Erase(c.image))
    else if line == [CharP] then c1
    else if line[0] == CharW then c1.(image := WriteConfig(c.image, tag, c.config, WriteHintAsWritten(line)).0)
    else if line[0] == CharR then c1.(config := LoadConfig(c.image, tag, c.config).config)
    else if line[0] == CharS then var (k, v) := SetArgs(line); c1.(config := setItem(c.config, k, v))
    else c1
  }

  /** True when no command matches the line. */
  predicate Unrecognised(line: Str)
    requires line != []
  {
    && line[0] !in {CharH, CharD, CharW, CharR, CharS}
    && line != [CharQ] && line != [CharC] && line != [CharE] && line != [CharP]
  }

  /** A line no command matches only records "unknown command": EEPROM, config and loop state are as before. */
  lemma UnknownLineIsInert(c: Console, tag: CStr, setItem: SetItem, line: Str)
    requires line != [] && Unrecognised(line)
    ensures Dispatch(c, tag, setItem, line) == c.(events := c.events + [UnknownCommand(line)])
  {
  }

  /**
   Which action a line selects, checked in runConfigUI's order: 'H', "Q",
   "C" and 'D' before "E", "P", 'W', 'R' and 'S'; a first-letter test
   matches any line starting with that letter, an exact test only the
   one-letter line.
   */
  lemma DispatchChoosesCommand(c: Console, tag: CStr, line: Str)
    requires line != []
    ensures EventOf(c, tag, line) == HelpPrinted <==> line[0] == CharH
    ensures EventOf(c, tag, line) == ConfigModeExited <==> line == [CharQ]
    ensures EventOf(c, tag, line) == BlocksDumped <==> line == [CharC]
    ensures EventOf(c, tag, line).BytesDumped? <==> line[0] == CharD
    ensures EventOf(c, tag, line) == Erased <==> line == [CharE]
    ensures EventOf(c, tag, line) == ConfigPrinted <==> line == [CharP]
    ensures EventOf(c, tag, line).ConfigWritten? <==> line[0] == CharW
    ensures EventOf(c, tag, line).ConfigRead? <==> line[0] == CharR
    ensures EventOf(c, tag, line).ItemSet? <==> line[0] == CharS
    ensures EventOf(c, tag, line).UnknownCommand? <==> Unrecognised(line)
  {
  }

  /** "E" writes 'X' over the whole EEPROM, after which no block is found, whatever the tag and start. */
  lemma EraseCommandForgetsBlocks(c: Console, tag: CStr, setItem: SetItem)
    ensures var c' := Dispatch(c, tag, setItem, [CharE]);
            && (forall j :: 0 <= j < Size ==> c'.image[j] == CharX)
            && forall t: Option<CStr>, s: int :: Locate(c'.image, t, s) == -1
  {
    EraseForgetsEveryBlock(c.image);
  }

  /** "D:" ++ P ++ "," ++ N dumps N bytes from P and changes nothing. */
  lemma DumpCommandArguments(c: Console, tag: CStr, setItem: SetItem, p: nat, n: nat)
    ensures var line := [CharD, Colon] + Decimal(p) + [Comma] + Decimal(n);
            Dispatch(c, tag, setItem, line) == c.(events := c.events + [BytesDumped(Some(p), Some(n))])
  {
    var line := [CharD, Colon] + Decimal(p) + [Comma] + Decimal(n);
    assert line[0] == CharD && |line| > 1;
    DumpArgsOfDecimal(p, n);
    DispatchDumpLine(c, tag, setItem, line);
  }

  /** A dump line changes nothing and records its arguments. */
  lemma DispatchDumpLine(c: Console, tag: CStr, setItem: SetItem, line: Str)
    requires |line| > 1 && line[0] == CharD
    ensures Dispatch(c, tag, setItem, line) == c.(events := c.events + [BytesDumped(DumpArgs(line).0, DumpArgs(line).1)])
  {
  }

  /** "S:" ++ K ++ "," ++ V calls setConfigItem with K and V and changes nothing else. */
  lemma SetCommandArguments(c: Console, tag: CStr, setItem: SetItem, key: Str, val: Str)
    requires key != [] && val != [] && Comma !in key && Comma !in val
    ensures var line := [CharS, Colon] + key + [Comma] + val;
            Dispatch(c, tag, setItem, line)
              == c.(config := setItem(c.config, Some(key), Some(val)),
                    events := c.events + [ItemSet(Some(key), Some(val))])
  {
    var line := [CharS, Colon] + key + [Comma] + val;
    SetArgsOfKeyValue(key, val);
    DispatchSetLine(c, tag, setItem, line);
  }

  /** A set line hands its key and value to setConfigItem and records them. */
  lemma DispatchSetLine(c: Console, tag: CStr, setItem: SetItem, line: Str)
    requires line != [] && line[0] == CharS
    ensures var (k, v) := SetArgs(line);
            Dispatch(c, tag, setItem, line) == c.(config := setItem(c.config, k, v), events := c.events + [ItemSet(k, v)])
  {
    assert line[0] != CharH && line[0] != CharD && line[0] != CharW && line[0] != CharR;
    assert line != [CharQ] && line != [CharC] && line != [CharE] && line != [CharP];
    var (k, v) := SetArgs(line);
    assert EventOf(c, tag, line) == ItemSet(k, v);
  }

  /**
   Any write line followed by "R": the config is written at position 0 (see
   WriteHintAsWritten), which always succeeds for a tag of four or more
   characters and a config of at most 255 bytes, and reading it back by the
   tag finds that block first, so the config is unchanged and the read
   reports success.
   */
  lemma WriteThenReadKeepsConfig(c: Console, tag: CStr, setItem: SetItem, line: Str)
    requires line != [] && line[0] == CharW
    requires |tag| >= TagSize && |c.config| <= 255
    ensures var c1 := Dispatch(c, tag, setItem, line);
            var c2 := Dispatch(c1, tag, setItem, [CharR]);
            && c1.events[|c.events|] == ConfigWritten(0, true)
            && c2.config == c.config
            && c2.events[|c1.events|] == ConfigRead(0)
  {
    SaveAtStartThenLoad(c.image, tag, c.config);
    var w := WriteBlock(c.image, tag, c.config, 0);
    var c1 := Dispatch(c, tag, setItem, line);
    WriteLineWritesAtZero(c, tag, setItem, line);
    assert c1.image == w.image && c1.config == c.config;
    var c2 := Dispatch(c1, tag, setItem, [CharR]);
    DispatchReadLine(c1, tag, setItem, [CharR]);
    var l := LoadConfig(w.image, tag, c.config);
    assert c2.config == l.config;
    assert l.config == c.config;
  }

  /** Every write line stores the config at position 0, whatever follows the 'W', and records whether that succeeded. */
  lemma WriteLineWritesAtZero(c: Console, tag: CStr, setItem: SetItem, line: Str)
    requires line != [] && line[0] == CharW
    ensures var w := WriteConfig(c.image, tag, c.config, 0);
            Dispatch(c, tag, setItem, line)
              == c.(image := w.0, events := c.events + [ConfigWritten(0, w.1)])
  {
  }

  /** A read line loads the config from the block carrying the tag and records the return value. */
  lemma DispatchReadLine(c: Console, tag: CStr, setItem: SetItem, line: Str)
    requires line != [] && line[0] == CharR
    ensures var l := LoadConfig(c.image, tag, c.config);
            Dispatch(c, tag, setItem, line)
              == c.(config := l.config, events := c.events + [ConfigRead(l.rc)])
  {
  }

  /**
   The console as the help text describes the write command ("W:P", P
   optional): a write line takes its position from the corrected parser
   WriteHint, so "W" writes over the block carrying the tag and "W:P" at P.
   Every other line is dispatched as runConfigUI does.
   */
  function DispatchCorrected(c: Console, tag: CStr, setItem: SetItem, line: Str): (c': Console)
    requires line != []
    ensures line[0] != CharW ==> c' == Dispatch(c, tag, setItem, line)
    ensures c'.reader == c.reader && c'.config == Dispatch(c, tag, setItem, line).config
    ensures c'.quit == Dispatch(c, tag, setItem, line).quit
    ensures line[0] == CharW ==>
              && c'.events == c.events + [ConfigWritten(WriteHint(line), WriteConfig(c.image, tag, c.config, WriteHint(line)).1)]
              && (c'.image == c.image || WriteBlock(c.image, tag, c.config, WriteHint(line)).Written?)
  {
    if line[0] == CharW then
      var pos := WriteHint(line);
      var w := WriteConfig(c.image, tag, c.config, pos);
      c.(image := w.0, events := c.events + [ConfigWritten(pos, w.1)])
    else Dispatch(c, tag, setItem, line)
  }

  /**
   With the corrected parser, "W" followed by "R" over an existing block
   rewrites that block in place and reads the config back unchanged.
   */
  lemma CorrectedWriteThenReadKeepsConfig(c: Console, tag: CStr, setItem: SetItem)
    requires |tag| >= TagSize && |c.config| <= 255
    requires exists o :: 0 <= o < Size && IsBlockAt(c.image, Some(tag), o)
    requires Locate(c.image, Some(tag), 0) + |c.config| + Overhead <= Size
    ensures var c1 := DispatchCorrected(c, tag, setItem, [CharW]);
            var c2 := DispatchCorrected(c1, tag, setItem, [CharR]);
            && c1.events[|c.events|] == ConfigWritten(NoPosition, true)
            && c2.config == c.config
            && c2.events[|c1.events|] == ConfigRead(0)
  {
    WriteHintIntended(0);
    SaveWithoutHintThenLoad(c.image, tag, c.config);
    var w := WriteBlock(c.image, tag, c.config, NoPosition);
    var wc := WriteConfig(c.image, tag, c.config, NoPosition);
    assert wc == (w.image, true);
    var c1 := DispatchCorrected(c, tag, setItem, [CharW]);
    assert c1 == c.(image := w.image, events := c.events + [ConfigWritten(NoPosition, true)]);
    var c2 := DispatchCorrected(c1, tag, setItem, [CharR]);
    assert c2 == Dispatch(c1, tag, setItem, [CharR]);
    DispatchReadLine(c1, tag, setItem, [CharR]);
    var l := LoadConfig(w.image, tag, c.config);
    assert c2.config == l.config;
    assert Locate(w.image, Some(tag), 0) == w.blockStart;
    assert l.config == c.config;
  }

  /**
   The two consoles part on "W" over an EEPROM with no block carrying the
   tag: runConfigUI writes the block at 0 and reports success, while the
   corrected console finds nothing to write over, fails and leaves the
   EEPROM as it was.
   */
  lemma WriteCommandDiscrepancy(c: Console, tag: CStr, setItem: SetItem)
    requires |tag| >= TagSize
    requires forall o :: 0 <= o < Size ==> !IsBlockAt(c.image, Some(tag), o)
    ensures Dispatch(c, tag, setItem, [CharW]).events[|c.events|] == ConfigWritten(0, true)
    ensures var d := DispatchCorrected(c, tag, setItem, [CharW]);
            d.events[|c.events|] == ConfigWritten(NoPosition, false) && d.image == c.image
  {
    var w0 := WriteConfig(c.image, tag, c.config, 0);
    assert w0.1;
    WriteLineWritesAtZero(c, tag, setItem, [CharW]);
    var d0 := Dispatch(c, tag, setItem, [CharW]);
    assert d0.events == c.events + [ConfigWritten(0, true)];
    WriteHintIntended(0);
    var wn := WriteConfig(c.image, tag, c.config, NoPosition);
    assert !wn.1 && wn.0 == c.image;
    var d := DispatchCorrected(c, tag, setItem, [CharW]);
    assert d.events == c.events + [ConfigWritten(NoPosition, false)];
  }

  /**
   One character of runConfigUI's loop: feed it to the line reader and, when
   it commits a non-empty line, dispatch that line and clear the buffer
   (strcpy(lineBuffer, "")). Anything else changes only the line reader.
   */
  function Step(c: Console, tag: CStr, setItem: SetItem, ch: SerialRead): (c': Console)
    requires ValidConsole(c)
    ensures ValidConsole(c')
    ensures ch != CR as int || |Pending(c.reader)| == 0 ==>
              c' == c.(reader := Feed(c.reader, ch, LineBufferSize).reader)
    ensures ch == CR as int && |Pending(c.reader)| > 0 ==>
              && Pending(c'.reader) == []
              && c'.events == c.events + [EventOf(c, tag, Pending(c.reader))]
    ensures ch == CR as int && |Pending(c.reader)| > 0 ==>
              var d := Dispatch(c, tag, setItem, Pending(c.reader));
              c'.image == d.image && c'.config == d.config && c'.quit == d.quit
    ensures |c'.config| == |c.config|
  {
    var f := Feed(c.reader, ch, LineBufferSize);
    var c1 := c.(reader := f.reader);
    if f.rc > 0 then
      var c2 := Dispatch(c1, tag, setItem, CString(f.reader.buffer));
      c2.(reader := c2.reader.(buffer := c2.reader.buffer[0 := 0]))
    else c1
  }

  /**
   runConfigUI's loop over the characters available: step until "Q" has
   been dispatched or the input runs out. Once "Q" is seen nothing changes.
   */
  function Run(c: Console, tag: CStr, setItem: SetItem, input: seq<SerialRead>): (c': Console)
    requires ValidConsole(c)
    ensures ValidConsole(c')
    ensures c.quit ==> c' == c
    ensures |c'.events| >= |c.events| && c'.events[..|c.events|] == c.events
    ensures |c'.config| == |c.config|
    decreases |input|
  {
    if c.quit || input == [] then c
    else
      var s := Step(c, tag, setItem, input[0]);
      assert |s.events| >= |c.events| && s.events[..|c.events|] == c.events;
      var r := Run(s, tag, setItem, input[1..]);
      assert r.events[..|c.events|] == r.events[..|s.events|][..|c.events|];
      r
  }

  /**
   runConfigUI: print the command help, then run the loop. Whatever was
   recorded before stays at the head of the events, followed by the help.
   */
  function RunConfigUI(c: Console, tag: CStr, setItem: SetItem, input: seq<SerialRead>): (c': Console)
    requires ValidConsole(c)
    ensures ValidConsole(c')
    ensures |c'.events| > |c.events| && c'.events[|c.events|] == HelpPrinted
    ensures forall k :: 0 <= k < |c.events| ==> c'.events[k] == c.events[k]
    ensures |c'.config| == |c.config|
  {
    var c0 := c.(events := c.events + [HelpPrinted]);
    RunKeepsHead(c0, tag, setItem, input);
    Run(c0, tag, setItem, input)
  }

  /**
   The loop passes each read through one step: no input leaves the console
   as it is, and a single read is one Step unless "Q" was already seen.
   */
  lemma RunSingleRead(c: Console, tag: CStr, setItem: SetItem, ch: SerialRead)
    requires ValidConsole(c)
    ensures Run(c, tag, setItem, []) == c
    ensures Run(c, tag, setItem, [ch]) == if c.quit then c else Step(c, tag, setItem, ch)
  {
    if !c.quit {
      assert [ch][1..] == [];
    }
  }

  /** Running over `a` and then over `b` is running over `a + b`: the loop resumes where it stopped. */
  lemma {:induction false} RunAppend(c: Console, tag: CStr, setItem: SetItem, a: seq<SerialRead>, b: seq<SerialRead>)
    requires ValidConsole(c)
    ensures Run(c, tag, setItem, a + b) == Run(Run(c, tag, setItem, a), tag, setItem, b)
    decreases |a|
  {
    if c.quit {
    } else if a == [] {
      assert a + b == b;
    } else {
      assert (a + b)[0] == a[0];
      assert (a + b)[1..] == a[1..] + b;
      RunAppend(Step(c, tag, setItem, a[0]), tag, setItem, a[1..], b);
    }
  }

  /** What a run starts with stays at the head of its events. */
  lemma RunKeepsHead(c: Console, tag: CStr, setItem: SetItem, input: seq<SerialRead>)
    requires ValidConsole(c)
    ensures var r := Run(c, tag, setItem, input);
            |r.events| >= |c.events| && forall k :: 0 <= k < |c.events| ==> r.events[k] == c.events[k]
  {
    var r := Run(c, tag, setItem, input);
    forall k | 0 <= k < |c.events|
      ensures r.events[k] == c.events[k]
    {
      assert r.events[k] == r.events[..|c.events|][k];
    }
  }

  /** Characters after the "Q" line are never read: extending the input past the quit changes nothing. */
  lemma {:induction false} RunStopsAtQuit(c: Console, tag: CStr, setItem: SetItem, input: seq<SerialRead>, more: seq<SerialRead>)
    requires ValidConsole(c)
    requires Run(c, tag, setItem, input).quit
    ensures Run(c, tag, setItem, input + more) == Run(c, tag, setItem, input)
    decreases |input|
  {
    if !c.quit {
      assert input != [];
      assert (input + more)[1..] == input[1..] + more;
      RunStopsAtQuit(Step(c, tag, setItem, input[0]), tag, setItem, input[1..], more);
    }
  }
}

=== FILE: eeprom.dfy ===
/**
 The EEPROM region the library stores its blocks in, abstracted as an
 immutable byte image of EPROM_CONFIG_END cells, starting at
 EPROM_CONFIG_START = 0.

 The device primitives `EEPROM.read` and `EEPROM.write` become `Read` and
 `Write` on the image. The library never bounds-checks its addresses (a
 marker found near the end makes it read up to 7 cells past the end, and a
 block written there runs off the end), so the model fixes what an address
 outside the region means: a read yields `Filler` and a write is dropped.
 */
module Eeprom {
  import opened Bytes

  const Size: int := 1024

  /** What a read outside [0, Size) yields in the model; the library leaves it undefined. */
  const Filler: byte := 0xFF

  type Image = s: seq<byte> | |s| == Size witness seq(1024, _ => 0)

  function Read(e: Image, i: int): byte {
    if 0 <= i < Size then e[i] else Filler
  }

  function Write(e: Image, i: int, b: byte): Image {
    if 0 <= i < Size then e[i := b] else e
  }

  /**
   writeBytesToEEPROM: writes `data[t]` at `loc + t` for t = 0, 1, ...
   in turn. The resulting image holds `data` over its range and is
   unchanged everywhere else.
   */
  function WriteBytes(e: Image, loc: int, data: Str): (r: Image)
    ensures forall j :: 0 <= j < Size && !(loc <= j < loc + |data|) ==> r[j] == e[j]
    ensures forall j :: 0 <= j < Size && loc <= j < loc + |data| ==> r[j] == data[j - loc]
    decreases |data|
  {
    if data == [] then e else WriteBytes(Write(e, loc, data[0]), loc + 1, data[1..])
  }

  /** writeByteToEEPROM: writes the same byte `n` times from `loc` on. */
  function Fill(e: Image, loc: int, n: nat, b: byte): (r: Image)
    ensures forall j :: 0 <= j < Size && !(loc <= j < loc + n) ==> r[j] == e[j]
    ensures forall j :: 0 <= j < Size && loc <= j < loc + n ==> r[j] == b
  {
    WriteBytes(e, loc, seq(n, _ => b))
  }

  /** readBytesFromEEPROM without its checksum side: the `n` cells from `loc`, in order. */
  function ReadBytes(e: Image, loc: int, n: nat): (r: Str)
    ensures |r| == n
  {
    seq(n, k => Read(e, loc + k))
  }

  /** Reading back a range just written returns the bytes written. */
  lemma ReadBytesAfterWriteBytes(e: Image, loc: int, data: Str)
    requires 0 <= loc && loc + |data| <= Size
    ensures ReadBytes(WriteBytes(e, loc, data), loc, |data|) == data
  {
    var r := WriteBytes(e, loc, data);
    forall k | 0 <= k < |data|
      ensures ReadBytes(r, loc, |data|)[k] == data[k]
    {
      assert ReadBytes(r, loc, |data|)[k] == Read(r, loc + k);
    }
  }

  /** Two images that agree on a window give the same bytes when read there. */
  lemma ReadBytesAgree(e: Image, e': Image, loc: int, n: nat)
    requires forall j :: 0 <= j < Size && loc <= j < loc + n ==> e[j] == e'[j]
    ensures ReadBytes(e, loc, n) == ReadBytes(e', loc, n)
  {
    forall k | 0 <= k < n
      ensures ReadBytes(e, loc, n)[k] == ReadBytes(e', loc, n)[k]
    {
      assert ReadBytes(e, loc, n)[k] == Read(e, loc + k);
      assert ReadBytes(e', loc, n)[k] == Read(e', loc + k);
    }
  }
}

=== FILE: line_reader.dfy ===
/**
 readLineFromSerial: assembles a line from characters fed one at a time.
 The function keeps a static position `pos` across calls and writes into
 the caller's buffer; a carriage return commits the line and returns its
 length, a line feed is ignored, and characters past the buffer's
 capacity are dropped.
 */
module LineReader {
  import opened Bytes

  /** sizeof(lineBuffer) in both callers. */
  const LineBufferSize: int := 32

  /** What Serial.read() returns: -1 when nothing is waiting, otherwise a byte. */
  type SerialRead = x: int | -1 <= x <= 255

  /** The static `pos` and the caller's buffer. */
  datatype Reader = Reader(pos: int, buffer: Str)

  /**
   The reader's invariant for a buffer of `cap` bytes: pos stays within
   [0, cap - 1], and once characters are pending the buffer holds them as a
   C string (no NUL among them, a NUL right after).
   */
  predicate Valid(r: Reader, cap: int) {
    && 1 <= cap == |r.buffer|
    && 0 <= r.pos <= cap - 1
    && (r.pos > 0 ==> r.buffer[r.pos] == 0 && NoNul(r.buffer[..r.pos]))
  }

  /** The characters accumulated since the last commit. */
  function Pending(r: Reader): Str
    requires 0 <= r.pos <= |r.buffer|
  {
    r.buffer[..r.pos]
  }

  /** A fresh reader over a buffer: nothing pending. */
  function Start(buffer: Str): (r: Reader)
    requires |buffer| >= 1
    ensures Valid(r, |buffer|) && Pending(r) == []
  {
    Reader(0, buffer)
  }

  /** The reader after one call, and the call's return value. */
  datatype Fed = Fed(reader: Reader, rc: int)

  /**
   readLineFromSerial(readch, buffer, bufferLen), in terms of the pending
   characters: a value <= 0 or '\n' changes nothing and returns -1; '\r'
   returns the number of pending characters, commits them as the C string
   the buffer now holds, and starts a new line; any other byte is appended
   while fewer than cap - 1 are pending and dropped otherwise, returning -1.
   */
  function Feed(r: Reader, ch: SerialRead, cap: int): (f: Fed)
    requires Valid(r, cap)
    ensures Valid(f.reader, cap)
    ensures f.rc == -1 || f.rc == |Pending(r)|
    ensures ch <= 0 || ch == LF as int ==> f == Fed(r, -1)
    ensures ch == CR as int ==>
              && f.rc == |Pending(r)|
              && Pending(f.reader) == []
              && f.reader.buffer == r.buffer
              && (f.rc > 0 ==> CString(f.reader.buffer) == Pending(r))
    ensures ch > 0 && ch != LF as int && ch != CR as int ==>
              && f.rc == -1
              && Pending(f.reader) == if |Pending(r)| < cap - 1 then Pending(r) + [ch as byte] else Pending(r)
  {
    if ch <= 0 || ch == LF as int then Fed(r, -1)
    else if ch == CR as int then
      CommittedLine(r);
      Fed(r.(pos := 0), r.pos)
    else if r.pos < cap - 1 then
      var b := r.buffer[r.pos := ch as byte][r.pos + 1 := 0];
      assert b[..r.pos + 1] == r.buffer[..r.pos] + [ch as byte];
      Fed(Reader(r.pos + 1, b), -1)
    else Fed(r, -1)
  }

  /** The C string a valid buffer holds is exactly the pending characters, once there are any. */
  lemma CommittedLine(r: Reader)
    requires Valid(r, |r.buffer|)
    ensures r.pos > 0 ==> CString(r.buffer) == Pending(r)
  {
  }
}

=== FILE: locator.dfy ===
/**
 The block locator: a byte-by-byte scan of the EEPROM image for the block
 marker "MGGG", optionally requiring the four tag bytes that follow it to
 equal a given tag (`atBlockStart`, `checkBlockTagMatches`, `locateBlock`).
 */
module Locator {
  import opened Bytes
  import opened Eeprom

  /** EPROM_BLOCK_START_MAGIC_STRING, "MGGG". */
  const Marker: Str := [CharM, CharG, CharG, CharG]
  const MarkerLen: int := 4

  /** EPROM_TAG_SIZE. */
  const TagSize: int := 4

  /** atBlockStart: the four cells from `o` spell the marker. */
  predicate AtBlockStart(e: Image, o: int) {
    && Read(e, o) == Marker[0]
    && Read(e, o + 1) == Marker[1]
    && Read(e, o + 2) == Marker[2]
    && Read(e, o + 3) == Marker[3]
  }

  /** A block starts where the four cells read from it, in order, are the marker. */
  lemma AtBlockStartReadsMarker(e: Image, o: int)
    ensures AtBlockStart(e, o) <==> ReadBytes(e, o, MarkerLen) == Marker
  {
    assert ReadBytes(e, o, MarkerLen) == [Read(e, o), Read(e, o + 1), Read(e, o + 2), Read(e, o + 3)];
  }

  /**
   Byte `k` of the tag as `checkBlockTagMatches` sees it. A tag shorter
   than four characters is read through its NUL terminator; the bytes past
   the terminator are not defined by C and are taken as NUL here too.
   */
  function TagByte(tag: CStr, k: int): byte {
    if 0 <= k < |tag| then tag[k] else 0
  }

  /** checkBlockTagMatches: the four cells from `o` equal the tag's first four bytes. */
  predicate TagMatches(e: Image, o: int, tag: CStr) {
    && Read(e, o) == TagByte(tag, 0)
    && Read(e, o + 1) == TagByte(tag, 1)
    && Read(e, o + 2) == TagByte(tag, 2)
    && Read(e, o + 3) == TagByte(tag, 3)
  }

  /**
   The tag matches where the four cells read from `o` are the tag's first
   four bytes, which for a tag of four or more characters are its prefix.
   */
  lemma TagMatchesReadsTag(e: Image, o: int, tag: CStr)
    ensures TagMatches(e, o, tag) <==> ReadBytes(e, o, TagSize) == seq(TagSize, k => TagByte(tag, k))
    ensures |tag| >= TagSize ==> (TagMatches(e, o, tag) <==> ReadBytes(e, o, TagSize) == tag[..TagSize])
  {
    assert ReadBytes(e, o, TagSize) == [Read(e, o), Read(e, o + 1), Read(e, o + 2), Read(e, o + 3)];
    assert seq(TagSize, k => TagByte(tag, k)) == [TagByte(tag, 0), TagByte(tag, 1), TagByte(tag, 2), TagByte(tag, 3)];
  }

  /** Offset `o` is where the locator stops: a marker, followed by the tag when one is given. */
  predicate IsBlockAt(e: Image, tag: Option<CStr>, o: int) {
    AtBlockStart(e, o) && (tag.Some? ==> TagMatches(e, o + MarkerLen, tag.value))
  }

  /**
   locateBlock(tag, startPos): the least offset o with startPos <= o < Size
   at which a block (with that tag, when given) starts, or -1 when there is none.
   */
  function Locate(e: Image, tag: Option<CStr>, start: int): (r: int)
    ensures r == -1 || (start <= r < Size && IsBlockAt(e, tag, r))
    ensures r != -1 ==> forall o :: start <= o < r ==> !IsBlockAt(e, tag, o)
    ensures r == -1 <==> forall o :: start <= o < Size ==> !IsBlockAt(e, tag, o)
    decreases Size - start
  {
    if start >= Size then -1
    else if IsBlockAt(e, tag, start) then start
    else Locate(e, tag, start + 1)
  }

  /** The locator's answer is pinned down by where the blocks are: any least match is it. */
  lemma LocateIsLeastMatch(e: Image, tag: Option<CStr>, start: int, o: int)
    requires start <= o < Size && IsBlockAt(e, tag, o)
    requires forall o' :: start <= o' < o ==> !IsBlockAt(e, tag, o')
    ensures Locate(e, tag, start) == o
  {
    var r := Locate(e, tag, start);
    assert r != -1;
  }

  /** Whether a block starts at `o` depends only on the eight cells from `o`. */
  lemma IsBlockAtAgree(e: Image, e': Image, tag: Option<CStr>, o: int)
    requires forall j :: 0 <= j < Size && o <= j < o + MarkerLen + TagSize ==> e[j] == e'[j]
    ensures IsBlockAt(e, tag, o) <==> IsBlockAt(e', tag, o)
  {
    assert Read(e, o) == Read(e', o);
    assert Read(e, o + 1) == Read(e', o + 1);
    assert Read(e, o + 2) == Read(e', o + 2);
    assert Read(e, o + 3) == Read(e', o + 3);
    assert Read(e, o + 4) == Read(e', o + 4);
    assert Read(e, o + 5) == Read(e', o + 5);
    assert Read(e, o + 6) == Read(e', o + 6);
    assert Read(e, o + 7) == Read(e', o + 7);
  }
}

=== FILE: parsing.dfy ===
/**
 The C and Arduino string routines the console relies on, on byte
 strings: `strtok` with a one-character delimiter, `atoi`, `isspace`,
 `String::indexOf` and `String::substring`, and the library's own field
 helpers `getField`, `getFieldOfSize` and `find_first_non_white_space`.
 */
module Parsing {
  import opened Bytes

  /** isspace in the C locale: space, \t, \n, \v, \f, \r. */
  predicate IsSpace(b: byte) {
    b == Space || 0x09 <= b <= 0x0D
  }

  predicate IsDigit(b: byte) {
    Zero <= b <= Nine
  }

  predicate AllDigits(s: Str) {
    forall i :: 0 <= i < |s| ==> IsDigit(s[i])
  }

  /** The first index of `d` in `s`, or |s| when `d` does not occur. */
  function IndexOf(s: Str, d: byte): (i: nat)
    ensures i <= |s|
    ensures forall k :: 0 <= k < i ==> s[k] != d
    ensures i < |s| ==> s[i] == d
    decreases |s|
  {
    if s == [] then 0
    else if s[0] == d then 0
    else 1 + IndexOf(s[1..], d)
  }

  /** `s` with its leading run of `d` removed. */
  function SkipLeading(s: Str, d: byte): (r: Str)
    ensures |r| <= |s| && r == s[|s| - |r|..]
    ensures forall k :: 0 <= k < |s| - |r| ==> s[k] == d
    ensures r == [] || r[0] != d
    decreases |s|
  {
    if s != [] && s[0] == d then SkipLeading(s[1..], d) else s
  }

  /**
   One step of strtok with the single delimiter `d`: skip leading
   delimiters, return the token up to the next delimiter (or the end) and
   the text after that delimiter, where the next call continues. No token
   (NULL) when only delimiters are left.
   */
  function Strtok(s: Str, d: byte): (r: (Option<Str>, Str))
    ensures r.0.Some? ==> r.0.value != [] && d !in r.0.value
    ensures r.0.None? <==> forall k :: 0 <= k < |s| ==> s[k] == d
    ensures r.0.None? ==> r.1 == []
    ensures s != [] && s[0] != d ==> r.0.Some? && r.0.value[0] == s[0]
  {
    var t := SkipLeading(s, d);
    if t == [] then (None, [])
    else
      var i := IndexOf(t, d);
      (Some(t[..i]), if i < |t| then t[i + 1..] else [])
  }

  /** A token followed by the delimiter is returned as is, and the next call starts after the delimiter. */
  lemma StrtokSplits(tok: Str, d: byte, rest: Str)
    requires tok != [] && d !in tok
    ensures Strtok(tok + [d] + rest, d) == (Some(tok), rest)
  {
    var s := tok + [d] + rest;
    assert s[0] == tok[0];
    assert SkipLeading(s, d) == s;
    IndexOfFirst(s, d, |tok|);
    assert s[..|tok|] == tok;
    assert s[|tok| + 1..] == rest;
  }

  /** A token running to the end is returned whole, and nothing is left. */
  lemma StrtokLast(tok: Str, d: byte)
    requires tok != [] && d !in tok
    ensures Strtok(tok, d) == (Some(tok), [])
  {
    assert SkipLeading(tok, d) == tok;
    assert IndexOf(tok, d) == |tok|;
    assert tok[..|tok|] == tok;
  }

  lemma IndexOfFirst(s: Str, d: byte, i: nat)
    requires i < |s| && s[i] == d
    requires forall k :: 0 <= k < i ==> s[k] != d
    ensures IndexOf(s, d) == i
  {
  }

  /** The longest prefix of `s` made of decimal digits. */
  function DigitPrefix(s: Str): (r: Str)
    ensures AllDigits(r) && |r| <= |s| && r == s[..|r|]
    ensures |r| < |s| ==> !IsDigit(s[|r|])
    decreases |s|
  {
    if s != [] && IsDigit(s[0]) then [s[0]] + DigitPrefix(s[1..]) else []
  }

  /** The number a string of decimal digits denotes. */
  function DigitsValue(ds: Str): nat
    requires AllDigits(ds)
    decreases |ds|
  {
    if ds == [] then 0 else DigitsValue(ds[..|ds| - 1]) * 10 + (ds[|ds| - 1] - Zero) as int
  }

  /** `s` with its leading white space removed. */
  function SkipSpace(s: Str): (r: Str)
    ensures |r| <= |s| && r == s[|s| - |r|..]
    ensures r == [] || !IsSpace(r[0])
    decreases |s|
  {
    if s != [] && IsSpace(s[0]) then SkipSpace(s[1..]) else s
  }

  /**
   atoi: leading white space, an optional sign, then as many decimal digits
   as follow; no digits gives 0. The C int it returns would overflow for
   long digit runs; the model's integers do not.
   */
  function Atoi(s: Str): int {
    var t := SkipSpace(s);
    if t != [] && t[0] == Minus then -(DigitsValue(DigitPrefix(t[1..])) as int)
    else if t != [] && t[0] == Plus then DigitsValue(DigitPrefix(t[1..]))
    else DigitsValue(DigitPrefix(t))
  }

  /** The decimal spelling of a natural number, most significant digit first. */
  function Decimal(n: nat): (s: Str)
    ensures s != [] && AllDigits(s)
    decreases n
  {
    if n < 10 then [Zero + n as byte] else Decimal(n / 10) + [Zero + (n % 10) as byte]
  }

  /** The digits of a number denote that number. */
  lemma {:induction false} DecimalValue(n: nat)
    ensures DigitsValue(Decimal(n)) == n
    decreases n
  {
    var s := Decimal(n);
    if n < 10 {
      DigitByte(n);
    } else {
      DecimalValue(n / 10);
      assert s[..|s| - 1] == Decimal(n / 10);
      DigitByte(n % 10);
      assert DigitsValue(s) == DigitsValue(Decimal(n / 10)) * 10 + n % 10;
    }
  }

  lemma DigitByte(d: nat)
    requires d < 10
    ensures IsDigit(Zero + d as byte) && ((Zero + d as byte) - Zero) as int == d
  {
  }

  /** atoi reads back the decimal spelling of any natural number. */
  lemma AtoiOfDecimal(n: nat)
    ensures Atoi(Decimal(n)) == n
  {
    var s := Decimal(n);
    assert SkipSpace(s) == s;
    AllDigitsPrefix(s);
    DecimalValue(n);
  }

  lemma AllDigitsPrefix(s: Str)
    requires AllDigits(s)
    ensures DigitPrefix(s) == s
  {
  }

  /** atoi of a string that starts with a byte other than white space, a sign or a digit is 0. */
  lemma AtoiNoDigits(s: Str)
    requires s != [] && !IsSpace(s[0]) && !IsDigit(s[0]) && s[0] != Minus && s[0] != Plus
    ensures Atoi(s) == 0
  {
    assert SkipSpace(s) == s;
    assert DigitPrefix(s) == [];
  }

  // ---------------------------------------------------------------------
  // The library's own field helpers.

  /**
   getField(msg, fieldSep): the text before the first separator, with `msg`
   left holding the text after it; without a separator, all of `msg`, with
   `msg` left empty.
   */
  function GetField(msg: Str, sep: byte): (r: (Str, Str))
    ensures sep in msg ==> msg == r.0 + [sep] + r.1 && sep !in r.0
    ensures sep !in msg ==> r == (msg, [])
  {
    var i := IndexOf(msg, sep);
    if i < |msg| then
      assert msg == msg[..i] + [sep] + msg[i + 1..];
      (msg[..i], msg[i + 1..])
    else (msg, [])
  }

  /** Width of `unsigned int` on the 8-bit AVR boards the library targets. */
  const UIntModulus: int := 0x1_0000

  /**
   Arduino String::substring(left, right): the bounds are swapped when
   out of order, a start at or past the end gives "", and the end is
   clamped to the length.
   */
  function Substring(s: Str, left: nat, right: nat): (r: Str)
    ensures var lo := if left <= right then left else right;
            var hi := if left <= right then right else left;
            |r| == (if lo >= |s| then 0 else if hi <= |s| then hi - lo else |s| - lo)
            && forall k :: 0 <= k < |r| ==> r[k] == s[lo + k]
  {
    if left > right then Substring(s, right, left)
    else if left >= |s| then []
    else s[left..if right <= |s| then right else |s|]
  }

  /**
   getFieldOfSize(msg, numChars): the first numChars characters, with `msg`
   left holding the rest. numChars is converted to `unsigned int` on its way
   into substring, so a negative count takes the whole string. Either way
   the field followed by the rest is the original string.
   */
  function GetFieldOfSize(msg: Str, numChars: int): (r: (Str, Str))
    ensures r.0 + r.1 == msg
    ensures var u := numChars % UIntModulus;
            |r.0| == if u <= |msg| then u else |msg|
  {
    var u := numChars % UIntModulus;
    var r := (Substring(msg, 0, u), Substring(msg, u, |msg|));
    assert u >= |msg| ==> r.0 == msg && r.1 == [];
    assert u < |msg| ==> r.0 == msg[..u] && r.1 == msg[u..];
    r
  }

  /**
   find_first_non_white_space(line): the position of the first byte of the
   C string that is not white space (its length when it is all white space,
   since the terminator is not white space).
   */
  method FirstNonWhiteSpace(line: CStr) returns (i: nat)
    ensures i <= |line|
    ensures forall k :: 0 <= k < i ==> IsSpace(line[k])
    ensures i < |line| ==> !IsSpace(line[i])
  {
    i := 0;
    while i < |line| && IsSpace(line[i])
      invariant i <= |line|
      invariant forall k :: 0 <= k < i ==> IsSpace(line[k])
    {
      i := i + 1;
    }
  }
}

=== FILE: startup.dfy ===
/**
 initConfig: load the stored config, then give the user a window of
 `configSelectPeriod` milliseconds, polled every 500 ms, to type "C" and
 Enter (enter the console) or "Q" and Enter (continue at once). Each poll
 takes one value from Serial.read() and feeds it to the line reader.

 The serial input is the sequence of values Serial.read() returns on
 successive calls; once it runs out nothing more arrives, which (like a
 -1 read) leaves the reader as it is, so the model stops polling there.
 */
module Startup {
  import opened Bytes
  import opened Eeprom
  import opened Block
  import opened LineReader
  import opened Console

  /** initCycleDelay: milliseconds between two polls. */
  const CycleDelay: int := 500

  /**
   C's `/` on integers, which truncates toward zero (Dafny's `/` is
   Euclidean): the remainder takes the sign of the dividend.
   */
  function TruncDiv(a: int, b: int): (q: int)
    requires b > 0
    ensures 0 <= a ==> 0 <= a - q * b < b
    ensures a < 0 ==> -b < a - q * b <= 0
  {
    if a >= 0 then a / b else -((-a) / b)
  }

  /** initPeriodCountMax: how many polls fit in the selection period; none for a negative period. */
  function PollCount(period: int): (n: int)
    ensures period >= 0 ==> n * CycleDelay <= period < (n + 1) * CycleDelay
    ensures period < CycleDelay ==> n <= 0
  {
    TruncDiv(period, CycleDelay)
  }

  /** How many of the available reads the gate may take: at most `budget`, and no more than there are. */
  function Window(budget: int, input: seq<SerialRead>): (n: nat)
    ensures n <= |input|
    ensures budget <= 0 ==> n == 0
    ensures 0 <= budget <= |input| ==> n == budget
    ensures budget >= |input| ==> n == |input|
  {
    if budget <= 0 then 0 else if budget < |input| then budget else |input|
  }

  /**
   The non-empty lines the reader commits while fed `chars`, in order. A
   carriage return on an empty line commits nothing (the reader returns 0).
   */
  function Lines(r: Reader, chars: seq<SerialRead>): seq<Str>
    requires Valid(r, LineBufferSize)
    decreases |chars|
  {
    if chars == [] then []
    else
      var f := Feed(r, chars[0], LineBufferSize);
      (if f.rc > 0 then [Pending(r)] else []) + Lines(f.reader, chars[1..])
  }

  /** Among `lines`, the first that is "C" or "Q" is "C". */
  predicate Selects(lines: seq<Str>)
    decreases |lines|
  {
    && lines != []
    && (lines[0] == [CharC] || (lines[0] != [CharQ] && Selects(lines[1..])))
  }

  /**
   The committed lines end at the first "C": the last line is "C", and no
   line before it is "C" or "Q".
   */
  predicate EndsAtFirstC(lines: seq<Str>)
  {
    && lines != []
    && lines[|lines| - 1] == [CharC]
    && forall i :: 0 <= i < |lines| - 1 ==> lines[i] != [CharC] && lines[i] != [CharQ]
  }

  /** The outcome of the gate loop: whether config mode was selected, the reader after it, and how many reads it took. */
  datatype GateOutcome = GateOutcome(selected: bool, reader: Reader, consumed: nat)

  /**
   The polling loop of initConfig with `budget` polls left. A committed "C"
   selects config mode and clears the buffer; a committed "Q" ends the loop;
   any other line is ignored. The loop takes at most `budget` reads, and
   when it selects config mode its last read is the carriage return that
   committed the line and nothing is left pending.
   */
  function Gate(r: Reader, input: seq<SerialRead>, budget: int): (g: GateOutcome)
    requires Valid(r, LineBufferSize)
    ensures Valid(g.reader, LineBufferSize)
    ensures g.consumed <= Window(budget, input)
    ensures g.selected ==> g.consumed > 0 && g.reader.pos == 0
    ensures g.selected ==> input[g.consumed - 1] == CR as int
    decreases |input|
  {
    if budget <= 0 || input == [] then GateOutcome(false, r, 0)
    else
      var f := Feed(r, input[0], LineBufferSize);
      if f.rc > 0 && CString(f.reader.buffer) == [CharC] then
        GateOutcome(true, f.reader.(buffer := f.reader.buffer[0 := 0]), 1)
      else if f.rc > 0 && CString(f.reader.buffer) == [CharQ] then
        GateOutcome(false, f.reader, 1)
      else
        var g := Gate(f.reader, input[1..], budget - 1);
        g.(consumed := g.consumed + 1)
  }

  /**
   When the gate selects config mode, its last read is the carriage return
   that committed the first "C" line: among the lines its reads commit, the
   last is "C" and none before it is "C" or "Q". Whatever follows, a "Q"
   line included, is left to runConfigUI.
   */
  lemma {:induction false} GateEndsAtFirstC(r: Reader, input: seq<SerialRead>, budget: int)
    requires Valid(r, LineBufferSize)
    ensures var g := Gate(r, input, budget);
            g.selected ==> EndsAtFirstC(Lines(r, input[..g.consumed]))
    decreases |input|
  {
    if budget > 0 && input != [] {
      var f := Feed(r, input[0], LineBufferSize);
      if f.rc > 0 && CString(f.reader.buffer) == [CharC] {
        GateSelectsAtFirstRead(r, input, budget);
      } else if !(f.rc > 0 && CString(f.reader.buffer) == [CharQ]) {
        GateEndsAtFirstC(f.reader, input[1..], budget - 1);
        GateGoesOnKeepsFirstC(r, input, budget);
      }
    }
  }

  /** A first read that commits "C" selects at once, with "C" the only line read. */
  lemma GateSelectsAtFirstRead(r: Reader, input: seq<SerialRead>, budget: int)
    requires Valid(r, LineBufferSize) && budget > 0 && input != []
    requires var f := Feed(r, input[0], LineBufferSize);
             f.rc > 0 && CString(f.reader.buffer) == [CharC]
    ensures var g := Gate(r, input, budget);
            g.selected && g.consumed == 1 && EndsAtFirstC(Lines(r, input[..g.consumed]))
  {
    FirstLineIsC(r, input);
  }

  /** Past a first read that commits neither "C" nor "Q", the gate's first "C" stays last. */
  lemma GateGoesOnKeepsFirstC(r: Reader, input: seq<SerialRead>, budget: int)
    requires Valid(r, LineBufferSize) && budget > 0 && input != []
    requires var f := Feed(r, input[0], LineBufferSize);
             && !(f.rc > 0 && CString(f.reader.buffer) == [CharC])
             && !(f.rc > 0 && CString(f.reader.buffer) == [CharQ])
    requires var f := Feed(r, input[0], LineBufferSize);
             var g := Gate(f.reader, input[1..], budget - 1);
             g.selected ==> EndsAtFirstC(Lines(f.reader, input[1..][..g.consumed]))
    ensures var g := Gate(r, input, budget);
            g.selected ==> EndsAtFirstC(Lines(r, input[..g.consumed]))
  {
    var f := Feed(r, input[0], LineBufferSize);
    var g := Gate(f.reader, input[1..], budget - 1);
    assert Gate(r, input, budget) == g.(consumed := g.consumed + 1);
    SkippedReadKeepsFirstC(r, input, g.consumed, g.selected);
  }

  /** A first read that commits "C" makes "C" the only line among the reads up to it. */
  lemma FirstLineIsC(r: Reader, input: seq<SerialRead>)
    requires Valid(r, LineBufferSize) && input != []
    requires var f := Feed(r, input[0], LineBufferSize);
             f.rc > 0 && CString(f.reader.buffer) == [CharC]
    ensures EndsAtFirstC(Lines(r, input[..1]))
  {
    LinesStep(r, input[..1]);
    assert input[..1][1..] == [];
  }

  /**
   A first read that commits neither "C" nor "Q" keeps the first "C" last:
   the line it commits, if any, goes in front of lines that end at it.
   */
  lemma SkippedReadKeepsFirstC(r: Reader, input: seq<SerialRead>, k: nat, selected: bool)
    requires Valid(r, LineBufferSize) && k < |input|
    requires var f := Feed(r, input[0], LineBufferSize);
             && !(f.rc > 0 && CString(f.reader.buffer) == [CharC])
             && !(f.rc > 0 && CString(f.reader.buffer) == [CharQ])
    requires selected ==> EndsAtFirstC(Lines(Feed(r, input[0], LineBufferSize).reader, input[1..][..k]))
    ensures selected ==> EndsAtFirstC(Lines(r, input[..k + 1]))
  {
    if selected {
      var f := Feed(r, input[0], LineBufferSize);
      var rest := Lines(f.reader, input[1..][..k]);
      PrefixLinesStep(r, input, k);
      if f.rc > 0 {
        CommitIsPending(r, input[0]);
        FirstCAfterLine(Pending(r), rest);
        assert Lines(r, input[..k + 1]) == [Pending(r)] + rest;
      } else {
        assert Lines(r, input[..k + 1]) == [] + rest == rest;
      }
    }
  }

  /** The lines of the first k + 1 reads: the first read's line, if any, then those of the next k. */
  lemma PrefixLinesStep(r: Reader, input: seq<SerialRead>, k: nat)
    requires Valid(r, LineBufferSize) && k < |input|
    ensures var f := Feed(r, input[0], LineBufferSize);
            Lines(r, input[..k + 1]) == (if f.rc > 0 then [Pending(r)] else []) + Lines(f.reader, input[1..][..k])
  {
    var w := input[..k + 1];
    assert w[0] == input[0];
    assert w[1..] == input[1..k + 1] == input[1..][..k];
    LinesStep(r, w);
  }

  /** A read that commits a line is a carriage return, and the line is what was pending. */
  lemma CommitIsPending(r: Reader, ch: SerialRead)
    requires Valid(r, LineBufferSize) && Feed(r, ch, LineBufferSize).rc > 0
    ensures ch == CR as int && CString(Feed(r, ch, LineBufferSize).reader.buffer) == Pending(r)
  {
  }

  /** A line that is neither "C" nor "Q" in front of lines that end at the first "C" keeps them so. */
  lemma FirstCAfterLine(line: Str, rest: seq<Str>)
    requires line != [CharC] && line != [CharQ] && EndsAtFirstC(rest)
    ensures EndsAtFirstC([line] + rest)
  {
    var ls := [line] + rest;
    forall i | 0 <= i < |ls| - 1
      ensures ls[i] != [CharC] && ls[i] != [CharQ]
    {
      if i > 0 {
        assert ls[i] == rest[i - 1];
      }
    }
  }

  /**
   The gate selects config mode exactly when, among the lines committed
   within the polling window, the first "C" or "Q" line is "C".
   */
  lemma {:induction false} GateDecision(r: Reader, input: seq<SerialRead>, budget: int)
    requires Valid(r, LineBufferSize)
    ensures Gate(r, input, budget).selected <==> Selects(Lines(r, input[..Window(budget, input)]))
    decreases |input|
  {
    var n := Window(budget, input);
    if n == 0 {
      assert input[..n] == [];
    } else {
      var f := Feed(r, input[0], LineBufferSize);
      var w := input[..n];
      WindowTail(input, budget);
      var rest := Lines(f.reader, w[1..]);
      GateDecision(f.reader, input[1..], budget - 1);
      assert Gate(f.reader, input[1..], budget - 1).selected <==> Selects(rest);
      GateSelectedStep(r, input, budget);
      LinesStep(r, w);
      if f.rc > 0 {
        var line := Pending(r);
        assert CString(f.reader.buffer) == line;
        assert Lines(r, w) == [line] + rest;
        SelectsStep(line, rest);
      } else {
        assert Lines(r, w) == rest;
      }
    }
  }

  /** The window after one read is the rest of the window. */
  lemma WindowTail(input: seq<SerialRead>, budget: int)
    requires Window(budget, input) > 0
    ensures var w := input[..Window(budget, input)];
            w[0] == input[0] && w[1..] == input[1..][..Window(budget - 1, input[1..])]
  {
  }

  /** One read of the committed lines: the line it commits, if any, comes first. */
  lemma LinesStep(r: Reader, chars: seq<SerialRead>)
    requires Valid(r, LineBufferSize) && chars != []
    ensures var f := Feed(r, chars[0], LineBufferSize);
            Lines(r, chars) == (if f.rc > 0 then [Pending(r)] else []) + Lines(f.reader, chars[1..])
  {
  }

  /** The first "C" or "Q" line is "C" when the first line is "C", or it is not "Q" and the rest select. */
  lemma SelectsStep(line: Str, rest: seq<Str>)
    ensures Selects([line] + rest) <==> line == [CharC] || (line != [CharQ] && Selects(rest))
  {
    assert ([line] + rest)[0] == line;
    assert ([line] + rest)[1..] == rest;
  }

  /** A "Q" line committed before any "C" line ends the gate at once, at the read that commits it. */
  lemma {:induction false} QuitLineStopsGate(r: Reader, before: seq<SerialRead>, budget: int)
    requires Valid(r, LineBufferSize)
    requires |before| < budget
    requires Lines(r, before) == []
    requires Feed(ReaderAfter(r, before), CR as int, LineBufferSize).rc > 0
    requires Pending(ReaderAfter(r, before)) == [CharQ]
    ensures var g := Gate(r, before + [CR as int], budget);
            !g.selected && g.consumed == |before| + 1
    decreases |before|
  {
    if before == [] {
      assert [] + [CR as int] == [CR as int];
      QuitLineEndsGate(r, budget);
    } else {
      var f := Feed(r, before[0], LineBufferSize);
      NoLinesStep(r, before);
      ReaderAfterStep(r, before);
      QuitLineStopsGate(f.reader, before[1..], budget - 1);
      GateSkipsLine(r, before, budget);
    }
  }

  /** A first read that commits no line only counts towards the gate's reads, whatever follows it. */
  lemma GateSkipsLine(r: Reader, before: seq<SerialRead>, budget: int)
    requires Valid(r, LineBufferSize) && before != [] && budget > 0
    requires Feed(r, before[0], LineBufferSize).rc <= 0
    ensures var g := Gate(Feed(r, before[0], LineBufferSize).reader, before[1..] + [CR as int], budget - 1);
            Gate(r, before + [CR as int], budget) == g.(consumed := g.consumed + 1)
  {
    var input := before + [CR as int];
    assert input[0] == before[0] && input[1..] == before[1..] + [CR as int];
    GateSkips(r, input, budget);
  }

  /** A read that commits "Q" ends the gate unselected. */
  lemma QuitLineEndsGate(r: Reader, budget: int)
    requires Valid(r, LineBufferSize) && budget > 0
    requires Feed(r, CR as int, LineBufferSize).rc > 0 && Pending(r) == [CharQ]
    ensures var g := Gate(r, [CR as int], budget);
            !g.selected && g.consumed == 1
  {
    var f := Feed(r, CR as int, LineBufferSize);
    assert CString(f.reader.buffer) == [CharQ];
    assert [CharQ] != [CharC] by { assert [CharQ][0] != [CharC][0]; }
  }

  lemma ReaderAfterStep(r: Reader, chars: seq<SerialRead>)
    requires Valid(r, LineBufferSize) && chars != []
    ensures ReaderAfter(r, chars) == ReaderAfter(Feed(r, chars[0], LineBufferSize).reader, chars[1..])
  {
  }

  /** One read of the gate: it selects on a committed "C", stops on a committed "Q", and otherwise goes on. */
  lemma GateSelectedStep(r: Reader, input: seq<SerialRead>, budget: int)
    requires Valid(r, LineBufferSize)
    requires budget > 0 && input != []
    ensures var f := Feed(r, input[0], LineBufferSize);
            Gate(r, input, budget).selected <==>
              || (f.rc > 0 && CString(f.reader.buffer) == [CharC])
              || (!(f.rc > 0 && CString(f.reader.buffer) == [CharQ]) && Gate(f.reader, input[1..], budget - 1).selected)
  {
  }

  /** A read that commits no line is where no line is committed among the reads. */
  lemma NoLinesStep(r: Reader, chars: seq<SerialRead>)
    requires Valid(r, LineBufferSize)
    requires chars != [] && Lines(r, chars) == []
    ensures var f := Feed(r, chars[0], LineBufferSize);
            f.rc <= 0 && Lines(f.reader, chars[1..]) == []
  {
  }

  /** A read that commits no line only counts towards the gate's reads. */
  lemma GateSkips(r: Reader, input: seq<SerialRead>, budget: int)
    requires Valid(r, LineBufferSize)
    requires budget > 0 && input != [] && Feed(r, input[0], LineBufferSize).rc <= 0
    ensures var g := Gate(Feed(r, input[0], LineBufferSize).reader, input[1..], budget - 1);
            Gate(r, input, budget) == g.(consumed := g.consumed + 1)
  {
  }

  /** The reader after being fed `chars`. */
  function ReaderAfter(r: Reader, chars: seq<SerialRead>): (r': Reader)
    requires Valid(r, LineBufferSize)
    ensures Valid(r', LineBufferSize)
    decreases |chars|
  {
    if chars == [] then r else ReaderAfter(Feed(r, chars[0], LineBufferSize).reader, chars[1..])
  }

  /**
   What initConfig leaves behind: the load's result, whether the console
   ran, how many reads the gate took, and the console's final state.
   */
  datatype Started = Started(loaded: Loaded, selected: bool, consumed: nat, console: Console)

  /**
   The end of initConfig, once the gate has decided: runConfigUI on the
   reads after the gate's when config mode was selected, nothing otherwise.
   */
  function AfterGate(e: Image, tag: CStr, setItem: SetItem, loaded: Loaded, g: GateOutcome,
                     uiBuffer: Str, input: seq<SerialRead>): (s: Started)
    requires Valid(g.reader, LineBufferSize) && |uiBuffer| == LineBufferSize
    requires g.consumed <= |input| && (g.selected ==> g.reader.pos == 0)
    ensures s.loaded == loaded && s.selected == g.selected && s.consumed == g.consumed
    ensures !s.selected ==> s.console == Console(e, loaded.config, g.reader, false, [ConfigPrinted])
    ensures s.selected ==>
              s.console == RunConfigUI(Console(e, loaded.config, Reader(0, uiBuffer), false, [ConfigPrinted]),
                                       tag, setItem, input[g.consumed..])
    ensures |s.console.events| >= 1 && s.console.events[0] == ConfigPrinted
    ensures s.selected ==> |s.console.events| >= 2 && s.console.events[1] == HelpPrinted
    ensures |s.console.config| == |loaded.config|
  {
    if g.selected then
      var c0 := Console(e, loaded.config, Reader(g.reader.pos, uiBuffer), false, [ConfigPrinted]);
      Started(loaded, true, g.consumed, RunConfigUI(c0, tag, setItem, input[g.consumed..]))
    else
      Started(loaded, false, g.consumed, Console(e, loaded.config, g.reader, false, [ConfigPrinted]))
  }

  /**
   initConfig(configTag, config, configLen, ...): load the config, show it
   (printConfig), run the gate, and when "C" was selected run runConfigUI
   on the reads that follow the gate's. The console starts from the same
   EEPROM and the loaded config, with a fresh line buffer of its own and
   the line reader's shared position, which the gate left at 0.
   */
  function InitConfig(e: Image, tag: CStr, config: Str, setItem: SetItem, period: int,
                      gateBuffer: Str, uiBuffer: Str, input: seq<SerialRead>): (s: Started)
    requires |gateBuffer| == LineBufferSize && |uiBuffer| == LineBufferSize
    ensures s.loaded == LoadConfig(e, tag, config)
    ensures s.selected <==> Selects(Lines(Start(gateBuffer), input[..Window(PollCount(period), input)]))
    ensures s.consumed <= Window(PollCount(period), input)
    ensures !s.selected ==> s.console == Console(e, s.loaded.config, s.console.reader, false, [ConfigPrinted])
    ensures s.selected ==>
              && s.consumed > 0 && input[s.consumed - 1] == CR as int
              && EndsAtFirstC(Lines(Start(gateBuffer), input[..s.consumed]))
              && s.console == RunConfigUI(Console(e, s.loaded.config, Reader(0, uiBuffer), false, [ConfigPrinted]),
                                          tag, setItem, input[s.consumed..])
    ensures |s.console.events| >= 1 && s.console.events[0] == ConfigPrinted
    ensures s.selected ==> |s.console.events| >= 2 && s.console.events[1] == HelpPrinted
    ensures |s.console.config| == |config|
    ensures period < CycleDelay ==> !s.selected
  {
    var loaded := LoadConfig(e, tag, config);
    var polls := PollCount(period);
    var g := Gate(Start(gateBuffer), input, polls);
    GateDecision(Start(gateBuffer), input, polls);
    GateEndsAtFirstC(Start(gateBuffer), input, polls);
    assert period < CycleDelay ==> Window(polls, input) == 0;
    AfterGate(e, tag, setItem, loaded, g, uiBuffer, input)
  }
}
